=== FILE: README.md ===
# save_to_pkl, modelled in Dafny

`save_to_pkl` prepares the Backblaze hard-drive SMART data for training. It
takes a comma-separated list of drive models, a list of years and a
`failed` flag. It loads the serial numbers of interest from
`<output_dir>/HDD_<years>_<failed|all>_<models>.npy`, then walks
`<base_path>/<year>/` for every year. For each daily `YYYY-MM-DD.csv`
snapshot, in sorted name order, it keeps the rows of each requested model
whose serial number is wanted. It drops the SMART attribute columns 22,
220, 222, 224 and 226, which not every model reports, and appends what is
left to one table. That table is pickled next to the `.npy` file as
`..._appended.pkl`.

The model is one pure function, `SaveToPkl.SaveToPkl`. It maps the
arguments and a snapshot of the file system to either the exception the
code raises or the rows it would pickle together with the pickle's path.
The file system is a value of type `SaveToPkl.FileSystem`:

- `.npy` files by path. An absent path means `os.path.exists` is false.
  `Unloadable` means `np.load` raises.
- directories by path. Each directory lists its entries with the table
  `read_csv` returns for them. `Unreadable` means `read_csv` raises.

A table is its column list and its rows. A row maps column names to cell
text. A cell pandas reads as NaN is a column missing from the row's map.
With that convention `pd.concat`'s column union needs no modelling.

Modules, in dependency order:

- `Results`: `Option` and `Result`.
- `Seqs`: order-preserving filter and concatenation, plus a subsequence predicate.
- `PyStr`: Python `str` semantics. This covers `isspace`, `strip`, `split`
  on one character, `join`, `startswith`, `endswith`, substring `in`,
  `int()` in base 10 and `str()` of a natural number. `int()` skips a
  narrower set of whitespace than `strip()`: the ASCII separators U+001C to
  U+001F are whitespace to `strip()` but make `int()` raise, so the two
  strip through one definition parameterised by the whitespace set.
- `PosixPath`: two-argument `os.path.join`.
- `Strptime`: `strptime(s, '%Y-%m-%d')`. It uses CPython's regular
  expressions for `%Y`, `%m` and `%d`, with `re.match` alternative order,
  the "unconverted data remains" check and the date range check.
- `Sorting`: `sorted()` on names, in code-point order.
- `Frames`: row selection, the column-drop rule and one model's chunk.
- `SaveToPkl`: paths, file eligibility, accumulation order and the entry point.

## Model

| member | source | states |
|---|---|---|
| `SaveToPkl.ParseList` | save_to_pkl.py:12 | one name per comma-separated piece, name `k` being piece `k` with surrounding whitespace removed; no name contains a comma or has whitespace at either end |
| `SaveToPkl.ParseListJoin` | save_to_pkl.py:12-13 | names free of commas and surrounding whitespace, joined with `,`, are parsed back to exactly those names |
| `SaveToPkl.ParseListPadded` | save_to_pkl.py:124 | the same names with any whitespace typed around each (`"2016, 2017"`) are still parsed back to exactly those names |
| `SaveToPkl.Cli` | save_to_pkl.py:121-127 | the years argument is split and stripped like the model argument; the run succeeds exactly when the `.npy` named by both parsed lists loads, and then pickles the database of the parsed years and models at the pickle path built from them |
| `SaveToPkl.OutputPathsShareStem` | save_to_pkl.py:11-30 | `NpyPath` and `PklPath`: the `.pkl` path is the `.npy` path with its trailing `.npy` replaced by `_appended.pkl`; both are `output_dir` joined with one shared `Stem`, which is `output_dir + "/" + stem` unless `output_dir` is empty or ends in `/` |
| `SaveToPkl.StemDecodes` | save_to_pkl.py:11-16 | `Stem`: split on `_`, the stem reads back as `HDD`, then the years in order, then `failed` exactly when the flag is set and `all` otherwise, then the split of the `_`-joined models |
| `SaveToPkl.SuffixDistinguishesFiles` | save_to_pkl.py:14 | the two flag values never name the same file, whatever the years and models |
| `SaveToPkl.SaveToPkl` | save_to_pkl.py:8-110 | absent `.npy` raises `FileNotFoundError` naming that path, with no rows; success happens exactly when the `.npy` loads; the result names the pickle path; every row's `model` is a requested model and its `serial_number` is one of the loaded serials; the pickled rows are exactly the accumulated database (see `DatabaseMembers`, `DatabaseComplete` and `DatabaseAppend`) for the given years, the parsed models and the loaded serials |
| `SaveToPkl.CsvFiles` | save_to_pkl.py:46 | exactly the entries whose names end in `.csv`, each as often as in the listing, in non-decreasing name order |
| `SaveToPkl.CanonicalFileInRange` | save_to_pkl.py:53-56 | `InDateRange`: a file named `YYYY-MM-DD.<rest>` passes the date filter exactly when the directory's year is four digits other than `0000` and the date is on or after January 1 of it |
| `SaveToPkl.YearRowsFromEligibleFiles` | save_to_pkl.py:46-56 | a year's rows come only from the `.csv` files passing the date filter; those files are visited in sorted name order |
| `SaveToPkl.FileRowsMembers` | save_to_pkl.py:51-95 | `FileRows`: a file contributes a row exactly when its dates parse and are in range, it was read, and some requested model's chunk holds the row |
| `SaveToPkl.YearRowsMembers` | save_to_pkl.py:40-98 | `YearRows`: a year contributes a row exactly when its directory exists and one of its `.csv` entries contributes the row |
| `SaveToPkl.DatabaseMembers` | save_to_pkl.py:32-98 | `Database`: the accumulated table holds a row exactly when some listed year contributes it |
| `SaveToPkl.DatabaseRowSound` | save_to_pkl.py:65-83 | every accumulated row has a requested `model` and a wanted `serial_number`; it is contributed by an in-range `.csv` file in an existing directory of a listed year, and it is a row of that file with exactly the file's drop list removed |
| `SaveToPkl.DatabaseComplete` | save_to_pkl.py:39-83 | every wanted row of an in-range `.csv` file of a listed year, in a file that has both key columns and only integer `smart_` fields, reaches the accumulated table with the drop list removed |
| `SaveToPkl.DatabaseSound` | save_to_pkl.py:68-71 | every accumulated row has a requested `model` and a wanted `serial_number` |
| `SaveToPkl.DatabaseAppend` | save_to_pkl.py:39 | processing years `a + b` gives the rows of `a` followed by the rows of `b` |
| `SaveToPkl.MissingYearSkipped` | save_to_pkl.py:42-44 | a year whose directory is missing can be removed from the list without changing the result |
| `SaveToPkl.FailingModelSkipped` | save_to_pkl.py:90-92 | a model whose chunk raises for a file can be removed without changing the other models' chunks or their order |
| `Frames.SelectRows` | save_to_pkl.py:68-71 | `KeyError` exactly when the `model` or `serial_number` column is missing; otherwise exactly the matching rows, each as often as in the file |
| `Frames.SelectRowsKeepsOrder` | save_to_pkl.py:68-71 | the selected rows keep their relative order from the file |
| `Frames.ShouldDrop` | save_to_pkl.py:77 | a column without `smart_` is kept; with it, `ValueError` exactly when the second `_` field is not an integer, and dropped exactly when that integer is 22, 220, 222, 224 or 226 |
| `Frames.SmartAttributeColumn` | save_to_pkl.py:77 | `smart_<n>` and `smart_<n>_<kind>` are dropped exactly when `n` is one of the five non-standard numbers |
| `Frames.DropColumns` | save_to_pkl.py:77 | raises exactly when some column's check raises; otherwise drops exactly the columns whose check says drop |
| `Frames.PruneRow` | save_to_pkl.py:78 | a pruned row keeps every column except the dropped ones, with unchanged values |
| `Frames.KeyColumnsKept` | save_to_pkl.py:77 | neither `model` nor `serial_number` is ever dropped |
| `Frames.ModelChunk` | save_to_pkl.py:68-89 | raises exactly when a key column is missing, or some row is wanted and a `smart_` column has a non-integer field; every row it returns belongs to the model and a wanted serial |
| `Frames.ChunkRowsSound` | save_to_pkl.py:65-92 | `ChunkRows`: every row a model contributes matches that model and a wanted serial; it is a wanted row of the file with exactly the drop list removed |
| `Frames.ChunkRowsComplete` | save_to_pkl.py:65-92 | `ChunkRows`: when the key columns exist and the drop list does not raise, every wanted row of the file is contributed with exactly the drop list removed |
| `Frames.BadAttributeSkipsChunk` | save_to_pkl.py:74-92 | a non-integer `smart_` field in a file with selected rows makes that model's chunk raise, so it contributes nothing |
| `Frames.EmptySelectionNeverRaises` | save_to_pkl.py:74 | with no row selected the column names are never checked, so no exception is raised |
| `Strptime.ParseYmd` | save_to_pkl.py:53 | a successful parse is a real calendar date (year 1 to 9999), read from a text of 8 to 10 characters |
| `Strptime.ParseFormatYmd` | save_to_pkl.py:53 | every valid date, written `YYYY-MM-DD` with zero padding, parses back to itself |
| `Strptime.YearStartParses` | save_to_pkl.py:54 | `f'{year}-01-01'` parses exactly when `year` is four ASCII digits other than `0000`; it then gives January 1 of that year |
| `Strptime.MatchYmd` | save_to_pkl.py:53 | a match has month 1 to 12 and day 1 to 31 and ends within the first 10 characters |
| `PyStr.Split` | save_to_pkl.py:12 | at least one piece; no piece contains the separator; a text without the separator is one piece, and one with it gives two or more |
| `PyStr.JoinSplit` | save_to_pkl.py:11-13 | `Join`: joining the pieces of a split with the same separator restores the text |
| `PyStr.SplitJoin` | save_to_pkl.py:11-13 | `Join`: splitting a join of separator-free pieces gives the pieces back |
| `PyStr.FirstPieceIsPrefix` | save_to_pkl.py:53 | `file.split('.')[0]` is the longest prefix of the name without a `.` |
| `PyStr.Strip` | save_to_pkl.py:12 | the result is an infix of the text with whitespace at neither end, and only whitespace was removed around it |
| `PyStr.StripPadded` | save_to_pkl.py:124 | whitespace around a stripped name is exactly what `strip()` removes |
| `PyStr.StripIdempotent` | save_to_pkl.py:124 | stripping twice is stripping once |
| `PyStr.Contains` | save_to_pkl.py:77 | `sub in s` holds exactly when `sub` occurs at some position of `s` |
| `PyStr.ParseFormatNat` | save_to_pkl.py:77 | the model's `int()` reads back the model's `str()` of every natural number, the interpreter's digit limit aside |
| `PyStr.ParseIntPadded` | save_to_pkl.py:77 | `ParseInt`: a natural number's digits with an optional `+` or `-`, surrounded by any whitespace `int()` skips (space, tab, newline, vertical tab, form feed, carriage return, or a non-ASCII `isspace()` character), read as that number, negated for `-` |
| `PyStr.ParseIntRejects` | save_to_pkl.py:77 | `ParseInt`: a text holding a character that is not whitespace to `int()`, a digit, `_` or a sign raises `ValueError` |
| `PyStr.SeparatorRejected` | save_to_pkl.py:77 | U+001C to U+001F are whitespace to `strip()` but not to `int()`: one of them in front of a number makes `int()` raise, as it does for the field of a column such as `smart_\x1c22` |
| `PosixPath.Join` | save_to_pkl.py:16 | the joined path ends with the name; an absolute name replaces the directory; otherwise the directory is kept as the prefix, and a `/` is added exactly when the directory is non-empty and lacks one |
| `PosixPath.JoinExtend` | save_to_pkl.py:30 | names that share a stem give paths that share that stem |
| `Sorting.SortBy` | save_to_pkl.py:46 | the result is a permutation of the input in non-decreasing code-point order of names |
| `Seqs.Filter` | save_to_pkl.py:68-71 | exactly the elements passing the test, each as often as in the input |
| `Seqs.FilterIsSubsequence` | save_to_pkl.py:68-71 | filtering keeps the relative order of what it keeps |
| `Seqs.ConcatMapAppend` | save_to_pkl.py:83 | accumulating over `a + b` gives the accumulation of `a` followed by that of `b` |

## Left out

- `os.listdir`, `os.path.exists`, `np.load`, `pd.read_csv` and `to_pickle` are not performed. The file system snapshot stands in for the first four, and the model returns what would be pickled.
- A failure of `to_pickle` (lines 102-107) and of `pd.concat` (lines 85-89) is not modelled. Both need pandas and disk state that the snapshot does not hold.
- Paths are compared as text. `./HDD_dataset/2016` and `HDD_dataset/2016` are different keys, so path normalisation and symbolic links are not modelled.
- Cell values are text. pandas dtype inference is left out, so a numeric `model` column that can never equal a model name is not modelled. NaN appears only as a missing key.
- pandas renames duplicate column names in `read_csv`. That renaming is not modelled.
- `print` output (every progress and error message) is left out.
- The argparse defaults and the `Error: ...` printing of the command line are left out.
- `PyStr.ParseInt` and `Strptime.ParseYmd` accept only ASCII digits. Python also accepts other Unicode decimal digits, which is irrelevant for Backblaze file and column names.
- `PyStr.ParseInt` does not cover bases other than 10, because `int()` is called without one.
- `PyStr.ParseInt` does not model the limit on decimal digits that CPython 3.11 and later (and the 3.7.14, 3.8.14, 3.9.14 and 3.10.7 security releases) put on `int()` of a string and `str()` of an integer: 4300 by default and configurable with `sys.set_int_max_str_digits`. The limit depends on the interpreter release and its configuration. Under it, a column such as `"smart_" + "1" * 4301` raises `ValueError` at line 77 and that model is skipped for the file, while the model keeps the rows. Backblaze attribute numbers have at most three digits.
- `PyStr.ParseFormatNat` holds for every natural number only because the digit limit above is not modelled.
- File names are Dafny strings, which hold Unicode scalar values only. On POSIX, `os.listdir` returns a name whose bytes do not decode in the file system encoding with lone surrogates U+DC80 to U+DCFF (the bytes `2016-01-01.\xff.csv` give `'2016-01-01.\udcff.csv'`). Such names cannot be represented, so how they sort and whether they are read is not modelled.
- `train_inference.py` is not part of this model. Its training code lives in the external `algorithms` package (`algorithms.Networks_pytorch` and `algorithms.Dataset_manipulation`), which this repository does not contain, plus PyTorch and scikit-learn.

=== FILE: frames.dfy ===
/** The pandas operations applied to one CSV snapshot: selecting the rows of
    one drive model whose serial number is wanted (save_to_pkl.py lines
    68-71), and dropping the SMART attribute columns that are not standard
    for all models (lines 77-78). A table is its column list and its rows; a
    row maps column names to cell text, and a cell pandas reads as NaN is a
    column missing from the row's map. */
module Frames {
  import opened Results
  import PyStr
  import Seqs

  type Row = map<string, string>

  datatype Table = Table(columns: seq<string>, rows: seq<Row>)

  /** The Python exceptions the pipeline raises or catches. */
  datatype PyError =
    | FileNotFoundError(path: string)
    | LoadError(path: string)
    | KeyError(key: string)
    | ValueError(text: string)

  const ModelColumn := "model"
  const SerialColumn := "serial_number"
  const SmartMarker := "smart_"

  /** SMART attribute numbers whose columns are dropped. */
  const NonStandardAttributes: set<int> := {22, 220, 222, 224, 226}

  /** The row belongs to drive model `model` and its serial number is wanted.
      A NaN cell compares unequal to everything. */
  predicate Matches(row: Row, model: string, serials: set<string>) {
    && ModelColumn in row && row[ModelColumn] == model
    && SerialColumn in row && row[SerialColumn] in serials
  }

  /** `df[df['model'] == model]` followed by
      `[... ['serial_number'].isin(serials)]`; a missing column raises `KeyError`. */
  function SelectRows(t: Table, model: string, serials: set<string>): (r: Result<seq<Row>, PyError>)
    ensures r.Err? <==> ModelColumn !in t.columns || SerialColumn !in t.columns
    ensures ModelColumn !in t.columns ==> r == Err(KeyError(ModelColumn))
    ensures r.Ok? ==> forall row :: row in r.value <==> row in t.rows && Matches(row, model, serials)
    ensures r.Ok? ==> forall row :: multiset(r.value)[row] == if Matches(row, model, serials) then multiset(t.rows)[row] else 0
  {
    if ModelColumn !in t.columns then Err(KeyError(ModelColumn))
    else if SerialColumn !in t.columns then Err(KeyError(SerialColumn))
    else Ok(Seqs.Filter(t.rows, row => Matches(row, model, serials)))
  }

  /** Selection keeps the chosen rows in the order the CSV file lists them. */
  lemma SelectRowsKeepsOrder(t: Table, model: string, serials: set<string>)
    requires SelectRows(t, model, serials).Ok?
    ensures Seqs.IsSubsequence(SelectRows(t, model, serials).value, t.rows)
  {
    Seqs.FilterIsSubsequence(t.rows, row => Matches(row, model, serials));
  }

  /** The text between the first and second `_` of a column name, which
      `int(col.split('_')[1])` converts; present whenever the name contains `smart_`. */
  function AttributeField(col: string): (f: string)
    requires PyStr.Contains(col, SmartMarker)
    ensures '_' !in f
  {
    SmartHasUnderscore(col);
    PyStr.Split(col, '_')[1]
  }

  lemma SmartHasUnderscore(col: string)
    requires PyStr.Contains(col, SmartMarker)
    ensures '_' in col
  {
    var i :| PyStr.OccursAt(col, SmartMarker, i);
    assert col[i + 5] == SmartMarker[5];
  }

  /** Whether the column is dropped: a column containing `smart_` is dropped
      when its attribute field is one of the non-standard numbers, and a
      field that is not an integer raises `ValueError`. */
  function ShouldDrop(col: string): (r: Result<bool, PyError>)
    ensures !PyStr.Contains(col, SmartMarker) ==> r == Ok(false)
    ensures r.Err? <==> PyStr.Contains(col, SmartMarker) && PyStr.ParseInt(AttributeField(col)).None?
    ensures r == Ok(true) <==>
      PyStr.Contains(col, SmartMarker) && PyStr.ParseInt(AttributeField(col)).Some?
      && PyStr.ParseInt(AttributeField(col)).value in NonStandardAttributes
  {
    if !PyStr.Contains(col, SmartMarker) then Ok(false)
    else
      var field := AttributeField(col);
      match PyStr.ParseInt(field)
      case None => Err(ValueError(field))
      case Some(n) => Ok(n in NonStandardAttributes)
  }

  /** The drop list of line 77, as a set: evaluated left to right, so the
      first column whose field is not an integer raises. */
  function DropColumns(cols: seq<string>): (r: Result<set<string>, PyError>)
    ensures r.Err? <==> exists k :: 0 <= k < |cols| && ShouldDrop(cols[k]).Err?
    ensures r.Ok? ==> forall c :: c in r.value <==> c in cols && ShouldDrop(c) == Ok(true)
  {
    if |cols| == 0 then Ok({})
    else
      match ShouldDrop(cols[0])
      case Err(e) => Err(e)
      case Ok(d) =>
        var rest := DropColumns(cols[1..]);
        assert forall k :: 1 <= k < |cols| ==> cols[k] == cols[1..][k - 1];
        assert forall c :: c in cols <==> c == cols[0] || c in cols[1..];
        match rest
        case Err(e) => Err(e)
        case Ok(s) => Ok(if d then {cols[0]} + s else s)
  }

  /** Removes the dropped columns from a row; every other cell is kept as is. */
  function PruneRow(row: Row, drop: set<string>): (r: Row)
    ensures r.Keys == row.Keys - drop
    ensures forall c :: c in r ==> r[c] == row[c]
  {
    row - drop
  }

  /** The chunk one drive model contributes from one table (lines 68-89): the
      selected rows with the non-standard columns removed, nothing when no row
      is selected, or the exception that aborts this model for this file. */
  function ModelChunk(t: Table, model: string, serials: set<string>): (r: Result<seq<Row>, PyError>)
    ensures r.Err? <==>
      || ModelColumn !in t.columns || SerialColumn !in t.columns
      || (AnyMatch(t, model, serials) && DropColumns(t.columns).Err?)
    ensures r.Ok? ==> forall row :: row in r.value ==> Matches(row, model, serials)
  {
    match SelectRows(t, model, serials)
    case Err(e) => Err(e)
    case Ok(selected) =>
      SelectionEmpty(t, model, serials);
      if |selected| == 0 then Ok([])
      else
        match DropColumns(t.columns)
        case Err(e) => Err(e)
        case Ok(drop) =>
          PrunedRowsMatch(selected, t.columns, model, serials);
          Ok(PruneRows(selected, drop))
  }

  /** The selection is empty exactly when no row of the table is wanted. */
  lemma SelectionEmpty(t: Table, model: string, serials: set<string>)
    requires SelectRows(t, model, serials).Ok?
    ensures SelectRows(t, model, serials).value == [] <==> !AnyMatch(t, model, serials)
  {
    var selected := SelectRows(t, model, serials).value;
    if selected != [] {
      assert selected[0] in selected;
    }
  }

  /** Pruning wanted rows leaves them wanted, since the key columns are kept. */
  lemma PrunedRowsMatch(rows: seq<Row>, cols: seq<string>, model: string, serials: set<string>)
    requires forall row :: row in rows ==> Matches(row, model, serials)
    requires DropColumns(cols).Ok?
    ensures forall row :: row in PruneRows(rows, DropColumns(cols).value) ==> Matches(row, model, serials)
  {
    forall row | row in PruneRows(rows, DropColumns(cols).value)
      ensures Matches(row, model, serials)
    {
      var src := PrunedSource(rows, DropColumns(cols).value, row);
      PruneKeepsMatch(src, cols, model, serials);
    }
  }

  /** Some row of the table belongs to `model` and a wanted serial number. */
  predicate AnyMatch(t: Table, model: string, serials: set<string>) {
    exists row :: row in t.rows && Matches(row, model, serials)
  }

  /** `PruneRow` applied to every row, in order. */
  function PruneRows(rows: seq<Row>, drop: set<string>): (r: seq<Row>)
    ensures |r| == |rows|
    ensures forall k :: 0 <= k < |rows| ==> r[k] == PruneRow(rows[k], drop)
  {
    seq(|rows|, k requires 0 <= k < |rows| => PruneRow(rows[k], drop))
  }

  /** The rows one drive model contributes; an exception is caught at line 90
      and the model is skipped for this file. */
  function ChunkRows(t: Table, model: string, serials: set<string>): seq<Row> {
    match ModelChunk(t, model, serials)
    case Ok(rows) => rows
    case Err(_) => []
  }

  /** Neither key column is ever dropped, since neither contains `smart_`. */
  lemma KeyColumnsKept()
    ensures !PyStr.Contains(ModelColumn, SmartMarker)
    ensures !PyStr.Contains(SerialColumn, SmartMarker)
  {
    assert forall i :: 0 <= i < |SerialColumn| - 1 ==> !(SerialColumn[i] == 's' && SerialColumn[i + 1] == 'm');
    PyStr.NoLeadingPair(SerialColumn, SmartMarker);
  }

  /** A non-empty chunk comes from a successful selection and drop list. */
  lemma ChunkRowsShape(t: Table, model: string, serials: set<string>)
    requires ChunkRows(t, model, serials) != []
    ensures SelectRows(t, model, serials).Ok? && DropColumns(t.columns).Ok?
    ensures ChunkRows(t, model, serials) == PruneRows(SelectRows(t, model, serials).value, DropColumns(t.columns).value)
  {
  }

  /** Every row a model contributes belongs to that model and a wanted serial
      number, and is a selected row of the table with exactly the drop list
      removed. */
  lemma ChunkRowsSound(t: Table, model: string, serials: set<string>, row: Row)
    requires row in ChunkRows(t, model, serials)
    ensures Matches(row, model, serials)
    ensures DropColumns(t.columns).Ok?
    ensures exists src :: src in t.rows && Matches(src, model, serials) && row == PruneRow(src, DropColumns(t.columns).value)
  {
    ChunkRowsShape(t, model, serials);
    var selected := SelectRows(t, model, serials).value;
    var drop := DropColumns(t.columns).value;
    var src := PrunedSource(selected, drop, row);
    assert src in t.rows && Matches(src, model, serials);
    PruneKeepsMatch(src, t.columns, model, serials);
  }

  /** `row` is a row of `t` with exactly the drop list of `t` removed. */
  predicate PrunedFrom(row: Row, t: Table) {
    && DropColumns(t.columns).Ok?
    && exists src :: src in t.rows && row == PruneRow(src, DropColumns(t.columns).value)
  }

  /** Every wanted row of a table whose key columns exist and whose column
      names all pass the integer check reaches the chunk, with exactly the
      drop list removed. */
  lemma ChunkRowsComplete(t: Table, model: string, serials: set<string>, src: Row)
    requires ModelColumn in t.columns && SerialColumn in t.columns
    requires DropColumns(t.columns).Ok?
    requires src in t.rows && Matches(src, model, serials)
    ensures PruneRow(src, DropColumns(t.columns).value) in ChunkRows(t, model, serials)
  {
    var selected := SelectRows(t, model, serials).value;
    var drop := DropColumns(t.columns).value;
    assert src in selected;
    var k :| 0 <= k < |selected| && selected[k] == src;
    assert ChunkRows(t, model, serials) == PruneRows(selected, drop);
    assert PruneRows(selected, drop)[k] == PruneRow(src, drop);
  }

  /** A one-row snapshot with only the key columns: the wanted row is
      contributed unchanged, so `ChunkRowsComplete`'s preconditions can be met. */
  lemma ChunkRowsCompleteWitness(model: string, serial: string)
    ensures var t := Table([ModelColumn, SerialColumn], [map[ModelColumn := model, SerialColumn := serial]]);
            t.rows[0] in ChunkRows(t, model, {serial})
  {
    var src := map[ModelColumn := model, SerialColumn := serial];
    var t := Table([ModelColumn, SerialColumn], [src]);
    assert DropColumns(t.columns) == Ok({}) by {
      KeyColumnsNeverDropped();
    }
    assert Matches(src, model, {serial});
    UndroppedRowKept(t, model, {serial}, src);
  }

  /** A wanted row of a table that drops no column is contributed unchanged. */
  lemma UndroppedRowKept(t: Table, model: string, serials: set<string>, src: Row)
    requires ModelColumn in t.columns && SerialColumn in t.columns
    requires DropColumns(t.columns) == Ok({})
    requires src in t.rows && Matches(src, model, serials)
    ensures src in ChunkRows(t, model, serials)
  {
    PruneNothing(src);
    ChunkRowsComplete(t, model, serials, src);
  }

  /** Pruning with an empty drop list leaves a row as it is. */
  lemma PruneNothing(row: Row)
    ensures PruneRow(row, {}) == row
  {
    var r := PruneRow(row, {});
    assert r.Keys == row.Keys;
    assert forall c :: c in r ==> r[c] == row[c];
  }

  /** A table with only the key columns drops nothing. */
  lemma KeyColumnsNeverDropped()
    ensures DropColumns([ModelColumn, SerialColumn]) == Ok({})
  {
    KeyColumnsKept();
    assert ShouldDrop(SerialColumn) == Ok(false);
    assert DropColumns([SerialColumn]) == Ok({}) by {
      assert [SerialColumn][1..] == [];
    }
    assert [ModelColumn, SerialColumn][1..] == [SerialColumn];
  }

  /** A pruned row comes from some row of the list it was pruned from. */
  lemma PrunedSource(rows: seq<Row>, drop: set<string>, row: Row) returns (src: Row)
    requires row in PruneRows(rows, drop)
    ensures src in rows && row == PruneRow(src, drop)
  {
    var k :| 0 <= k < |rows| && PruneRows(rows, drop)[k] == row;
    src := rows[k];
  }

  /** Pruning never removes the key columns, so a matching row still matches. */
  lemma PruneKeepsMatch(src: Row, cols: seq<string>, model: string, serials: set<string>)
    requires Matches(src, model, serials)
    requires DropColumns(cols).Ok?
    ensures Matches(PruneRow(src, DropColumns(cols).value), model, serials)
  {
    KeyColumnsKept();
  }

  /** Backblaze column names `smart_<n>` and `smart_<n>_<kind>`: dropped
      exactly when `n` is a non-standard attribute number. */
  lemma SmartAttributeColumn(n: nat, tail: string)
    requires tail == [] || tail[0] == '_'
    ensures ShouldDrop(SmartMarker + PyStr.FormatNat(n) + tail) == Ok(n in NonStandardAttributes)
  {
    var digits := PyStr.FormatNat(n);
    SmartColumnField(digits, tail);
    PyStr.ParseFormatNat(n);
  }

  lemma SmartColumnField(digits: string, tail: string)
    requires forall k :: 0 <= k < |digits| ==> PyStr.IsDigit(digits[k])
    requires tail == [] || tail[0] == '_'
    ensures PyStr.Contains(SmartMarker + digits + tail, SmartMarker)
    ensures AttributeField(SmartMarker + digits + tail) == digits
  {
    var col := SmartMarker + digits + tail;
    assert PyStr.OccursAt(col, SmartMarker, 0);
    SecondField(digits, tail);
  }

  lemma SecondField(digits: string, tail: string)
    requires forall k :: 0 <= k < |digits| ==> PyStr.IsDigit(digits[k])
    requires tail == [] || tail[0] == '_'
    ensures |PyStr.Split(SmartMarker + digits + tail, '_')| >= 2
    ensures PyStr.Split(SmartMarker + digits + tail, '_')[1] == digits
  {
    var col := SmartMarker + digits + tail;
    assert '_' !in digits;
    if tail == [] {
      assert col == "smart" + ['_'] + digits;
      PyStr.SplitAtFirst("smart", '_', digits);
    } else {
      var rest := digits + ['_'] + tail[1..];
      assert col == "smart" + ['_'] + rest;
      PyStr.SplitAtFirst("smart", '_', rest);
      PyStr.SplitAtFirst(digits, '_', tail[1..]);
    }
  }

  /** A selected chunk whose table has a `smart_` column with a non-integer
      field raises, so the model contributes nothing for that file. */
  lemma BadAttributeSkipsChunk(t: Table, model: string, serials: set<string>, k: nat)
    requires SelectRows(t, model, serials).Ok? && |SelectRows(t, model, serials).value| > 0
    requires k < |t.columns| && PyStr.Contains(t.columns[k], SmartMarker)
    requires PyStr.ParseInt(AttributeField(t.columns[k])).None?
    ensures ModelChunk(t, model, serials).Err?
    ensures ChunkRows(t, model, serials) == []
  {
  }

  /** With no row selected the columns are never inspected, so the chunk is
      empty rather than an error. */
  lemma EmptySelectionNeverRaises(t: Table, model: string, serials: set<string>)
    requires SelectRows(t, model, serials) == Ok([])
    ensures ModelChunk(t, model, serials) == Ok([])
  {
  }
}

=== FILE: posixpath.dfy ===
/** `os.path.join` with two arguments on a POSIX system. */
module PosixPath {
  import PyStr

  /** `os.path.join(a, b)`: an absolute `b` replaces `a`; otherwise `b` is
      appended to `a`, with a `/` inserted unless `a` is empty or already
      ends in one. */
  function Join(a: string, b: string): (r: string)
    ensures PyStr.EndsWith(r, b)
    ensures PyStr.StartsWith(b, "/") ==> r == b
    ensures !PyStr.StartsWith(b, "/") ==> r == a + b || r == a + "/" + b
    ensures a == "" || PyStr.EndsWith(a, "/") ==> !PyStr.StartsWith(b, "/") ==> r == a + b
    ensures a != "" && !PyStr.EndsWith(a, "/") && !PyStr.StartsWith(b, "/") ==> r == a + "/" + b
  {
    if PyStr.StartsWith(b, "/") then b
    else if a == "" || PyStr.EndsWith(a, "/") then a + b
    else a + "/" + b
  }

  /** Extending a relative name extends the joined path by the same text, so
      names that share a stem give paths that share that stem. */
  lemma {:induction false} JoinExtend(a: string, b: string, c: string)
    requires |b| > 0
    ensures Join(a, b + c) == Join(a, b) + c
  {
    assert (b + c)[..1] == b[..1];
  }
}

=== FILE: pystr.dfy ===
/** The Python `str` operations the pipeline relies on, with CPython's
    semantics: `isspace`, `strip()`, `split(sep)` with a one-character
    separator, `sep.join`, `startswith`/`endswith`, substring `in`, and the
    base-10 `int()` conversion together with `str()` of an integer. */
module PyStr {
  import opened Results

  /** `str.isspace()` for one character: the characters CPython treats as
      whitespace (bidirectional class WS, B or S, or category Zs). */
  predicate IsSpace(c: char) {
    var n := c as int;
    || 0x09 <= n <= 0x0D
    || 0x1C <= n <= 0x20
    || n == 0x85 || n == 0xA0 || n == 0x1680
    || 0x2000 <= n <= 0x200A
    || n == 0x2028 || n == 0x2029 || n == 0x202F || n == 0x205F || n == 0x3000
  }

  /** The whitespace `int()` skips around a number. An ASCII character is
      skipped only when it is a space or one of `\t \n \v \f \r`; a
      non-ASCII character is first turned into a space when `isspace()` holds
      for it. So U+001C to U+001F, which `strip()` removes, make `int()` raise. */
  predicate IsIntSpace(c: char) {
    var n := c as int;
    n == 0x20 || 0x09 <= n <= 0x0D || (n >= 0x80 && IsSpace(c))
  }

  /** The two whitespace sets the pipeline strips: `strip()`'s and `int()`'s. */
  datatype Blanks = StrBlanks | IntBlanks

  predicate Blank(b: Blanks, c: char) {
    match b
    case StrBlanks => IsSpace(c)
    case IntBlanks => IsIntSpace(c)
  }

  predicate AllBlank(b: Blanks, s: string) {
    forall k :: 0 <= k < |s| ==> Blank(b, s[k])
  }

  /** Neither end of `s` is whitespace of kind `b`. */
  predicate StrippedBy(b: Blanks, s: string) {
    |s| == 0 || (!Blank(b, s[0]) && !Blank(b, s[|s| - 1]))
  }

  predicate AllSpace(s: string) {
    AllBlank(StrBlanks, s)
  }

  /** Neither end of `s` is whitespace: `s` is its own `strip()`. */
  predicate IsStripped(s: string) {
    StrippedBy(StrBlanks, s)
  }

  /** Number of leading whitespace characters. */
  function LeadingSpace(b: Blanks, s: string): (n: nat)
    ensures n <= |s|
    ensures AllBlank(b, s[..n])
    ensures n < |s| ==> !Blank(b, s[n])
  {
    if |s| == 0 || !Blank(b, s[0]) then 0 else 1 + LeadingSpace(b, s[1..])
  }

  /** Length of `s` once its trailing whitespace is removed. */
  function TrailingStart(b: Blanks, s: string): (n: nat)
    ensures n <= |s|
    ensures AllBlank(b, s[n..])
    ensures n > 0 ==> !Blank(b, s[n - 1])
  {
    if |s| == 0 || !Blank(b, s[|s| - 1]) then |s|
    else
      var n := TrailingStart(b, s[..|s| - 1]);
      assert s[n..] == s[..|s| - 1][n..] + [s[|s| - 1]];
      n
  }

  /** The infix of `s` left after removing whitespace of kind `b` at both ends. */
  function StripBy(b: Blanks, s: string): (r: string)
    ensures StrippedBy(b, r)
    ensures exists i, j :: 0 <= i <= j <= |s| && r == s[i..j] && AllBlank(b, s[..i]) && AllBlank(b, s[j..])
  {
    var i := LeadingSpace(b, s);
    var t := s[i..];
    var j := TrailingStart(b, t);
    assert t[..j] == s[i..i + j];
    assert s[i + j..] == t[j..];
    assert j > 0 ==> t[0] == s[i];
    t[..j]
  }

  /** `s.strip()`: the infix of `s` left after removing whitespace at both ends. */
  function Strip(s: string): (r: string)
    ensures IsStripped(r)
    ensures exists i, j :: 0 <= i <= j <= |s| && r == s[i..j] && AllSpace(s[..i]) && AllSpace(s[j..])
  {
    StripBy(StrBlanks, s)
  }

  /** Whitespace around an already stripped string is exactly what is removed. */
  lemma StripPaddedBy(b: Blanks, pre: string, s: string, post: string)
    requires AllBlank(b, pre) && AllBlank(b, post) && StrippedBy(b, s)
    ensures StripBy(b, pre + s + post) == s
  {
    var w := pre + s + post;
    var i := LeadingSpace(b, w);
    if |s| == 0 {
      assert AllBlank(b, w);
      assert i == |w|;
    } else {
      assert w[|pre|] == s[0];
      assert i == |pre|;
      var t := w[i..];
      assert t == s + post;
      var j := TrailingStart(b, t);
      assert t[|s| - 1] == s[|s| - 1];
      assert j == |s|;
      assert t[..j] == s;
    }
  }

  /** Whitespace around an already stripped string is exactly what `strip()` removes. */
  lemma StripPadded(pre: string, s: string, post: string)
    requires AllSpace(pre) && AllSpace(post) && IsStripped(s)
    ensures Strip(pre + s + post) == s
  {
    StripPaddedBy(StrBlanks, pre, s, post);
  }

  /** `strip()` is idempotent. */
  lemma StripIdempotent(s: string)
    ensures Strip(Strip(s)) == Strip(s)
  {
    StripPadded("", Strip(s), "");
    assert "" + Strip(s) + "" == Strip(s);
  }

  /** `s.split(sep)` for a one-character separator: the maximal runs between
      separators, so `k` separators give `k + 1` pieces (`"".split(",")` is `[""]`). */
  function Split(s: string, sep: char): (r: seq<string>)
    ensures |r| >= 1
    ensures forall k :: 0 <= k < |r| ==> sep !in r[k]
    ensures sep !in s ==> r == [s]
    ensures sep in s ==> |r| >= 2
  {
    if |s| == 0 then [""]
    else
      var rest := Split(s[1..], sep);
      if s[0] == sep then [""] + rest
      else
        assert s == [s[0]] + s[1..];
        assert sep !in s ==> sep !in s[1..];
        [[s[0]] + rest[0]] + rest[1..]
  }

  /** `sep.join(xs)`. */
  function Join(sep: string, xs: seq<string>): string {
    if |xs| == 0 then ""
    else if |xs| == 1 then xs[0]
    else xs[0] + sep + Join(sep, xs[1..])
  }

  /** Joining the pieces of a split with the same separator gives the string back. */
  lemma {:induction false} JoinSplit(s: string, sep: char)
    ensures Join([sep], Split(s, sep)) == s
  {
    if |s| > 0 {
      var rest := Split(s[1..], sep);
      JoinSplit(s[1..], sep);
      assert rest == [rest[0]] + rest[1..];
      if s[0] == sep {
        assert Split(s, sep) == [""] + rest;
        assert Join([sep], [""] + rest) == "" + [sep] + Join([sep], rest);
      } else {
        var head := [s[0]] + rest[0];
        assert Split(s, sep) == [head] + rest[1..];
        if |rest| == 1 {
          assert Join([sep], [head]) == head;
        } else {
          assert Join([sep], [head] + rest[1..]) == head + [sep] + Join([sep], rest[1..]);
          assert Join([sep], rest) == rest[0] + [sep] + Join([sep], rest[1..]);
        }
      }
    }
  }

  /** Splitting at the first separator peels off the text before it. */
  lemma {:induction false} SplitAtFirst(a: string, sep: char, rest: string)
    requires sep !in a
    ensures Split(a + [sep] + rest, sep) == [a] + Split(rest, sep)
  {
    if |a| == 0 {
      assert a + [sep] + rest == [sep] + rest;
      assert ([sep] + rest)[1..] == rest;
    } else {
      assert (a + [sep] + rest)[1..] == a[1..] + [sep] + rest;
      SplitAtFirst(a[1..], sep, rest);
      assert [a[0]] + a[1..] == a;
    }
  }

  /** Splitting a join of separator-free pieces gives the pieces back. */
  lemma {:induction false} SplitJoin(xs: seq<string>, sep: char)
    requires |xs| >= 1
    requires forall k :: 0 <= k < |xs| ==> sep !in xs[k]
    ensures Split(Join([sep], xs), sep) == xs
  {
    if |xs| > 1 {
      SplitJoin(xs[1..], sep);
      SplitAtFirst(xs[0], sep, Join([sep], xs[1..]));
      assert [xs[0]] + xs[1..] == xs;
    }
  }

  /** Splitting a join of separator-free pieces that is followed by a
      separator and more text gives the pieces, then the split of the rest. */
  lemma {:induction false} SplitJoinThen(xs: seq<string>, sep: char, rest: string)
    requires |xs| >= 1
    requires forall k :: 0 <= k < |xs| ==> sep !in xs[k]
    ensures Split(Join([sep], xs) + [sep] + rest, sep) == xs + Split(rest, sep)
  {
    if |xs| == 1 {
      assert Join([sep], xs) == xs[0] && xs == [xs[0]];
      SplitAtFirst(xs[0], sep, rest);
      assert Split(Join([sep], xs) + [sep] + rest, sep) == [xs[0]] + Split(rest, sep);
    } else {
      var head, others := xs[0], xs[1..];
      assert forall k :: 0 <= k < |others| ==> sep !in others[k];
      SplitJoinThen(others, sep, rest);
      var tail := Join([sep], others) + [sep] + rest;
      assert Join([sep], xs) == head + [sep] + Join([sep], others);
      assert Join([sep], xs) + [sep] + rest == head + [sep] + tail;
      SplitAtFirst(head, sep, tail);
      assert Split(Join([sep], xs) + [sep] + rest, sep) == [head] + Split(tail, sep);
      assert [head] + (others + Split(rest, sep)) == ([head] + others) + Split(rest, sep);
      assert [head] + others == xs;
    }
  }

  /** The first piece of a split is the text before the first separator. */
  lemma {:induction false} FirstPieceIsPrefix(s: string, sep: char)
    ensures var p := Split(s, sep)[0];
            |p| <= |s| && p == s[..|p|] && sep !in p && (|p| == |s| || s[|p|] == sep)
  {
    if |s| > 0 && s[0] != sep {
      FirstPieceIsPrefix(s[1..], sep);
    }
  }

  /** `s.startswith(p)`. */
  predicate StartsWith(s: string, p: string) {
    |p| <= |s| && s[..|p|] == p
  }

  /** `s.endswith(p)`. */
  predicate EndsWith(s: string, p: string) {
    |p| <= |s| && s[|s| - |p|..] == p
  }

  /** `sub` occurs in `s` starting at index `i`. */
  predicate OccursAt(s: string, sub: string, i: int) {
    0 <= i <= |s| - |sub| && s[i..i + |sub|] == sub
  }

  /** `sub in s`: computed by trying each start position. */
  function Contains(s: string, sub: string): (b: bool)
    ensures b <==> exists i :: OccursAt(s, sub, i)
  {
    if StartsWith(s, sub) then
      assert OccursAt(s, sub, 0);
      true
    else if |s| == 0 then false
    else
      var b := Contains(s[1..], sub);
      forall i | OccursAt(s, sub, i)
        ensures i >= 1 && OccursAt(s[1..], sub, i - 1)
      {
        assert s[1..][i - 1..i - 1 + |sub|] == s[i..i + |sub|];
      }
      forall i | OccursAt(s[1..], sub, i)
        ensures OccursAt(s, sub, i + 1)
      {
        assert s[1..][i..i + |sub|] == s[i + 1..i + 1 + |sub|];
      }
      b
  }

  /** A text in which the first two characters of `sub` never appear side
      by side does not contain `sub`. */
  lemma NoLeadingPair(s: string, sub: string)
    requires |sub| >= 2
    requires forall i :: 0 <= i < |s| - 1 ==> !(s[i] == sub[0] && s[i + 1] == sub[1])
    ensures !Contains(s, sub)
  {
    forall i
      ensures !OccursAt(s, sub, i)
    {
      if 0 <= i <= |s| - |sub| {
        assert s[i..i + |sub|][0] == s[i] && s[i..i + |sub|][1] == s[i + 1];
      }
    }
  }

  /** An ASCII decimal digit, the only digits modelled for `int()`. */
  predicate IsDigit(c: char) {
    '0' <= c <= '9'
  }

  function DigitValue(c: char): nat
    requires IsDigit(c)
  {
    (c as int) - ('0' as int)
  }

  function DigitChar(n: nat): (c: char)
    requires n < 10
    ensures IsDigit(c) && DigitValue(c) == n
  {
    (('0' as int) + n) as char
  }

  /** Every character is a digit or a grouping underscore. */
  predicate DigitsOrUnderscores(b: string) {
    forall k :: 0 <= k < |b| ==> IsDigit(b[k]) || b[k] == '_'
  }

  /** The digit body `int()` accepts: digits, with single underscores allowed
      only between two digits. */
  predicate IsDigitBody(b: string) {
    && |b| > 0
    && DigitsOrUnderscores(b)
    && IsDigit(b[0])
    && IsDigit(b[|b| - 1])
    && forall k :: 0 <= k < |b| - 1 ==> DigitAfterUnderscore(b, k)
  }

  /** An underscore at `k` is followed by a digit. */
  predicate DigitAfterUnderscore(b: string, k: nat)
    requires k + 1 < |b|
  {
    b[k] == '_' ==> IsDigit(b[k + 1])
  }

  /** Decimal value of a digit body, ignoring grouping underscores. */
  function BodyValue(b: string): nat
    requires DigitsOrUnderscores(b)
  {
    if |b| == 0 then 0
    else if b[|b| - 1] == '_' then BodyValue(b[..|b| - 1])
    else 10 * BodyValue(b[..|b| - 1]) + DigitValue(b[|b| - 1])
  }

  /** `int(s)` in base 10: surrounding whitespace (`IsIntSpace`) is ignored,
      one optional sign is accepted; anything else raises `ValueError` (here
      `None`). */
  function ParseInt(s: string): (r: Option<int>)
  {
    ParseSigned(StripBy(IntBlanks, s))
  }

  /** `int()` of text already stripped of surrounding whitespace. */
  function ParseSigned(t: string): Option<int> {
    var signed := |t| > 0 && (t[0] == '+' || t[0] == '-');
    var body := if signed then t[1..] else t;
    if !IsDigitBody(body) then None
    else
      var v: int := BodyValue(body);
      if signed && t[0] == '-' then Some(-v) else Some(v)
  }

  /** `str(n)` for a natural number: its decimal digits, no leading zeros. */
  function FormatNat(n: nat): (r: string)
    ensures |r| > 0
    ensures forall k :: 0 <= k < |r| ==> IsDigit(r[k])
  {
    if n < 10 then [DigitChar(n)] else FormatNat(n / 10) + [DigitChar(n % 10)]
  }

  /** `int(str(n)) == n`. */
  lemma ParseFormatNat(n: nat)
    ensures ParseInt(FormatNat(n)) == Some(n)
  {
    var r := FormatNat(n);
    FormatValue(n);
    ParseDigits(r);
  }

  /** A plain run of digits is read as its decimal value. */
  lemma ParseDigits(r: string)
    requires |r| > 0
    requires forall k :: 0 <= k < |r| ==> IsDigit(r[k])
    ensures IsDigitBody(r)
    ensures ParseInt(r) == Some(BodyValue(r) as int)
  {
    DigitsAreBody(r);
    StripStripped(IntBlanks, r);
    SignedDigits("", r);
    assert "" + r == r;
  }

  /** `int()` reads a natural number written with an optional sign and any
      whitespace around it: `int(" -42 ") == -42`. */
  lemma ParseIntPadded(pre: string, sign: string, n: nat, post: string)
    requires AllBlank(IntBlanks, pre) && AllBlank(IntBlanks, post)
    requires sign == "" || sign == "+" || sign == "-"
    ensures ParseInt(pre + sign + FormatNat(n) + post) == Some(if sign == "-" then -(n as int) else n as int)
  {
    var d := FormatNat(n);
    var core := sign + d;
    assert StripBy(IntBlanks, pre + sign + d + post) == core by {
      assert pre + sign + d + post == pre + core + post;
      SignedDigits(sign, d);
      StripPaddedBy(IntBlanks, pre, core, post);
    }
    SignedValue(sign, n);
  }

  /** `str(n)` after an optional sign reads back as `n` or `-n`. */
  lemma SignedValue(sign: string, n: nat)
    requires sign == "" || sign == "+" || sign == "-"
    ensures ParseSigned(sign + FormatNat(n)) == Some(if sign == "-" then -(n as int) else n as int)
  {
    FormatValue(n);
    SignedDigits(sign, FormatNat(n));
  }

  /** A sign followed by plain digits is stripped text that reads as their value. */
  lemma SignedDigits(sign: string, d: string)
    requires sign == "" || sign == "+" || sign == "-"
    requires |d| > 0 && forall k :: 0 <= k < |d| ==> IsDigit(d[k])
    ensures StrippedBy(IntBlanks, sign + d)
    ensures ParseSigned(sign + d) == Some(if sign == "-" then -(BodyValue(d) as int) else BodyValue(d) as int)
  {
    DigitsAreBody(d);
    var core := sign + d;
    assert core[|core| - 1] == d[|d| - 1];
    if sign == "" {
      assert core == d;
      assert !IsIntSpace(d[0]);
      assert !(d[0] == '+' || d[0] == '-');
    } else {
      assert core[0] == sign[0];
      assert core[1..] == d;
    }
  }

  lemma DigitsAreBody(d: string)
    requires |d| > 0 && forall k :: 0 <= k < |d| ==> IsDigit(d[k])
    ensures IsDigitBody(d)
    ensures !IsIntSpace(d[|d| - 1]) && !IsIntSpace(d[0])
  {
  }

  /** A character that is neither `int()` whitespace, a digit, `_` nor a sign
      makes `int()` raise wherever it stands: `int("22a")`, `int("raw")` and
      `int("\x1c22")` raise `ValueError`. */
  lemma ParseIntRejects(s: string, k: nat)
    requires k < |s|
    requires !IsIntSpace(s[k]) && !IsDigit(s[k]) && s[k] != '_' && s[k] != '+' && s[k] != '-'
    ensures ParseInt(s) == None
  {
    var m := StripIndex(IntBlanks, s, k);
    SignedRejects(StripBy(IntBlanks, s), m);
  }

  /** The separators U+001C to U+001F are whitespace to `strip()` but not to
      `int()`: in front of a number they make `int()` raise. */
  lemma SeparatorRejected(c: char, n: nat)
    requires 0x1C <= c as int <= 0x1F
    ensures IsSpace(c) && !IsIntSpace(c)
    ensures ParseInt([c] + FormatNat(n)) == None
  {
    ParseIntRejects([c] + FormatNat(n), 0);
  }

  /** A character that is not whitespace of kind `b` survives stripping. */
  lemma StripIndex(b: Blanks, s: string, k: nat) returns (m: nat)
    requires k < |s| && !Blank(b, s[k])
    ensures m < |StripBy(b, s)| && StripBy(b, s)[m] == s[k]
  {
    var t := StripBy(b, s);
    var i, j :| 0 <= i <= j <= |s| && t == s[i..j] && AllBlank(b, s[..i]) && AllBlank(b, s[j..]);
    InfixIndex(b, s, i, j, k);
    m := k - i;
  }

  /** A character that is not whitespace lies inside any infix whose
      surroundings are all whitespace. */
  lemma InfixIndex(b: Blanks, s: string, i: nat, j: nat, k: nat)
    requires i <= j <= |s| && AllBlank(b, s[..i]) && AllBlank(b, s[j..])
    requires k < |s| && !Blank(b, s[k])
    ensures i <= k < j && s[i..j][k - i] == s[k]
  {
    assert i <= k by {
      NoBlankAt(b, s[..i], s[k]);
    }
    assert k < j by {
      NoBlankAt(b, s[j..], s[k]);
    }
  }

  /** A character that is not whitespace does not occur in a run of whitespace. */
  lemma NoBlankAt(b: Blanks, u: string, c: char)
    requires AllBlank(b, u) && !Blank(b, c)
    ensures c !in u
  {
  }

  lemma SignedRejects(t: string, k: nat)
    requires k < |t|
    requires !IsDigit(t[k]) && t[k] != '_' && t[k] != '+' && t[k] != '-'
    ensures ParseSigned(t) == None
  {
    var signed := |t| > 0 && (t[0] == '+' || t[0] == '-');
    var body := if signed then t[1..] else t;
    if signed {
      assert body[k - 1] == t[k];
    } else {
      assert body[k] == t[k];
    }
    assert !DigitsOrUnderscores(body);
  }

  lemma StripStripped(b: Blanks, s: string)
    requires StrippedBy(b, s)
    ensures StripBy(b, s) == s
  {
    StripPaddedBy(b, "", s, "");
    assert "" + s + "" == s;
  }

  lemma {:induction false} FormatValue(n: nat)
    ensures BodyValue(FormatNat(n)) == n
  {
    var r := FormatNat(n);
    if n >= 10 {
      FormatValue(n / 10);
      assert r[..|r| - 1] == FormatNat(n / 10);
    } else {
      assert r[..0] == [];
    }
  }
}

=== FILE: results.dfy ===
/** The wrappers used throughout the model: `Option` for partial parses and
    `Result` for operations that may raise a Python exception. */
module Results {

  /** A value that may be absent (a parse that did not succeed). */
  datatype Option<+T> = None | Some(value: T)

  /** The outcome of an operation that either returns a value or raises. */
  datatype Result<+T, +E> = Ok(value: T) | Err(error: E)
}

=== FILE: save_to_pkl.dfy ===
/** `save_to_pkl` (save_to_pkl.py lines 8-110) and the command line's years
    parsing (line 124), as one pure function from the arguments and a
    snapshot of the file system to either the exception it raises or the
    table it pickles together with the pickle's path.

    The file system is a value: the `.npy` files by path (absent when
    `os.path.exists` is false, `Unloadable` when `np.load` raises) and the
    directories by path, each listing its entries with the table `read_csv`
    returns (`Unreadable` when it raises). */
module SaveToPkl {
  import opened Results
  import PyStr
  import PosixPath
  import Strptime
  import Sorting
  import Seqs
  import opened Frames

  datatype FileContent = Csv(table: Table) | Unreadable

  /** One name `os.listdir` returns, with what reading it as CSV gives. */
  datatype Entry = Entry(name: string, content: FileContent)

  /** The array of serial numbers `np.load` returns, or a load that raises. */
  datatype NpyFile = SerialArray(serials: seq<string>) | Unloadable

  datatype FileSystem = FileSystem(npy: map<string, NpyFile>, dirs: map<string, seq<Entry>>)

  /** What is pickled, where, and the message returned. */
  datatype Saved = Saved(path: string, rows: seq<Row>, message: string)

  const CsvSuffix := ".csv"

  /** `[x.strip() for x in arg.split(',')]`: how both the model argument
      (line 12) and the years argument (line 124) are read. */
  function ParseList(arg: string): (r: seq<string>)
    ensures |r| == |PyStr.Split(arg, ',')| >= 1
    ensures forall k :: 0 <= k < |r| ==> ',' !in r[k] && PyStr.IsStripped(r[k])
    ensures forall k :: 0 <= k < |r| ==> r[k] == PyStr.Strip(PyStr.Split(arg, ',')[k])
  {
    var pieces := PyStr.Split(arg, ',');
    seq(|pieces|, k requires 0 <= k < |pieces| => StripPiece(pieces[k]))
  }

  function StripPiece(piece: string): (r: string)
    requires ',' !in piece
    ensures ',' !in r && PyStr.IsStripped(r) && r == PyStr.Strip(piece)
  {
    var r := PyStr.Strip(piece);
    var i, j :| 0 <= i <= j <= |piece| && r == piece[i..j];
    assert forall k :: 0 <= k < |r| ==> r[k] == piece[i + k];
    r
  }

  /** A comma-joined list of names, each free of commas and of surrounding
      whitespace, is read back as exactly those names. */
  lemma ParseListJoin(names: seq<string>)
    requires |names| >= 1
    requires forall k :: 0 <= k < |names| ==> ',' !in names[k] && PyStr.IsStripped(names[k])
    ensures ParseList(PyStr.Join(",", names)) == names
  {
    PyStr.SplitJoin(names, ',');
    forall k | 0 <= k < |names|
      ensures ParseList(PyStr.Join(",", names))[k] == names[k]
    {
      PyStr.StripStripped(PyStr.StrBlanks, names[k]);
    }
  }

  /** Names padded with whitespace, as a user may type `--years "2016, 2017"`. */
  function Padded(pre: seq<string>, names: seq<string>, post: seq<string>): (r: seq<string>)
    requires |pre| == |names| == |post|
    ensures |r| == |names|
    ensures forall k :: 0 <= k < |r| ==> r[k] == pre[k] + names[k] + post[k]
  {
    seq(|names|, k requires 0 <= k < |names| => pre[k] + names[k] + post[k])
  }

  /** A comma-joined list of names with any whitespace around each name is
      read back as exactly the names: `strip()` removes the padding. */
  lemma ParseListPadded(pre: seq<string>, names: seq<string>, post: seq<string>)
    requires |names| >= 1 && |pre| == |names| == |post|
    requires forall k :: 0 <= k < |names| ==> ',' !in names[k] && PyStr.IsStripped(names[k])
    requires forall k :: 0 <= k < |names| ==> PyStr.AllSpace(pre[k]) && PyStr.AllSpace(post[k])
    ensures ParseList(PyStr.Join(",", Padded(pre, names, post))) == names
  {
    var pieces := Padded(pre, names, post);
    forall k | 0 <= k < |pieces|
      ensures ',' !in pieces[k]
    {
      assert ',' !in pre[k] by {
        assert forall i :: 0 <= i < |pre[k]| ==> PyStr.IsSpace(pre[k][i]);
      }
      assert ',' !in post[k] by {
        assert forall i :: 0 <= i < |post[k]| ==> PyStr.IsSpace(post[k][i]);
      }
    }
    PyStr.SplitJoin(pieces, ',');
    forall k | 0 <= k < |names|
      ensures ParseList(PyStr.Join(",", pieces))[k] == names[k]
    {
      PyStr.StripPadded(pre[k], names[k], post[k]);
    }
  }

  /** `"_" + "_".join(years)` (line 11). */
  function YearTag(years: seq<string>): string {
    "_" + PyStr.Join("_", years)
  }

  /** `'failed' if failed else 'all'` (line 14). */
  function Suffix(failed: bool): string {
    if failed then "failed" else "all"
  }

  /** The file-name stem the `.npy` input and the `.pkl` output share
      (lines 13, 16 and 30). */
  function Stem(years: seq<string>, failed: bool, models: seq<string>): string {
    "HDD" + YearTag(years) + "_" + Suffix(failed) + "_" + PyStr.Join("_", models)
  }

  function NpyPath(outputDir: string, years: seq<string>, failed: bool, models: seq<string>): string {
    PosixPath.Join(outputDir, Stem(years, failed, models) + ".npy")
  }

  function PklPath(outputDir: string, years: seq<string>, failed: bool, models: seq<string>): string {
    PosixPath.Join(outputDir, Stem(years, failed, models) + "_appended.pkl")
  }

  /** The pickle path is the `.npy` path with its `.npy` ending replaced by
      `_appended.pkl`, and both are `outputDir` joined with the same stem: a
      file directly inside `outputDir`, with a `/` in between unless
      `outputDir` is empty or already ends in one. */
  lemma OutputPathsShareStem(outputDir: string, years: seq<string>, failed: bool, models: seq<string>)
    ensures var npy := NpyPath(outputDir, years, failed, models);
            PyStr.EndsWith(npy, ".npy")
            && PklPath(outputDir, years, failed, models) == npy[..|npy| - 4] + "_appended.pkl"
    ensures var stem := Stem(years, failed, models);
            && NpyPath(outputDir, years, failed, models) == PosixPath.Join(outputDir, stem) + ".npy"
            && PklPath(outputDir, years, failed, models) == PosixPath.Join(outputDir, stem) + "_appended.pkl"
    ensures outputDir != "" && !PyStr.EndsWith(outputDir, "/") ==>
              PosixPath.Join(outputDir, Stem(years, failed, models)) == outputDir + "/" + Stem(years, failed, models)
    ensures outputDir == "" || PyStr.EndsWith(outputDir, "/") ==>
              PosixPath.Join(outputDir, Stem(years, failed, models)) == outputDir + Stem(years, failed, models)
  {
    var stem := Stem(years, failed, models);
    PosixPath.JoinExtend(outputDir, stem, ".npy");
    PosixPath.JoinExtend(outputDir, stem, "_appended.pkl");
    var base := PosixPath.Join(outputDir, stem);
    assert (base + ".npy")[..|base + ".npy"| - 4] == base;
    assert stem[0] == 'H';
    assert !PyStr.StartsWith(stem, "/");
  }

  /** Reading the stem back: split on `_` it gives `HDD`, the years, the
      `failed`/`all` suffix, then the split of the joined model names, so the
      suffix is `failed` exactly when the flag is set. */
  lemma StemDecodes(years: seq<string>, failed: bool, models: seq<string>)
    requires |years| >= 1
    requires forall k :: 0 <= k < |years| ==> '_' !in years[k]
    ensures PyStr.Split(Stem(years, failed, models), '_')
            == ["HDD"] + years + [Suffix(failed)] + PyStr.Split(PyStr.Join("_", models), '_')
    ensures PyStr.Split(Stem(years, failed, models), '_')[|years| + 1] == (if failed then "failed" else "all")
  {
    var tag := PyStr.Join("_", models);
    var suffix := Suffix(failed);
    assert Stem(years, failed, models) == "HDD" + "_" + (PyStr.Join("_", years) + "_" + (suffix + "_" + tag));
    SplitFields(years, suffix, tag);
    assert (["HDD"] + years + [suffix] + PyStr.Split(tag, '_'))[|years| + 1] == suffix;
  }

  lemma SplitFields(years: seq<string>, suffix: string, tag: string)
    requires |years| >= 1
    requires forall k :: 0 <= k < |years| ==> '_' !in years[k]
    requires '_' !in suffix
    ensures PyStr.Split("HDD" + "_" + (PyStr.Join("_", years) + "_" + (suffix + "_" + tag)), '_')
            == ["HDD"] + years + [suffix] + PyStr.Split(tag, '_')
  {
    var afterYears := suffix + "_" + tag;
    var afterHdd := PyStr.Join("_", years) + "_" + afterYears;
    PyStr.SplitAtFirst("HDD", '_', afterHdd);
    PyStr.SplitJoinThen(years, '_', afterYears);
    PyStr.SplitAtFirst(suffix, '_', tag);
    var tail := [suffix] + PyStr.Split(tag, '_');
    Seqs.ConsAppend("HDD", years, tail);
  }

  /** The two flag values never name the same file, whatever the years and models. */
  lemma SuffixDistinguishesFiles(years: seq<string>, models: seq<string>)
    ensures Stem(years, true, models) != Stem(years, false, models)
  {
    var k := |"HDD" + YearTag(years) + "_"|;
    assert Stem(years, true, models)[k] == 'f';
    assert Stem(years, false, models)[k] == 'a';
  }

  function NameOf(e: Entry): string {
    e.name
  }

  predicate IsCsv(e: Entry) {
    PyStr.EndsWith(e.name, CsvSuffix)
  }

  /** `sorted([f for f in os.listdir(year_path) if f.endswith('.csv')])` (line 46). */
  function CsvFiles(entries: seq<Entry>): (r: seq<Entry>)
    ensures Sorting.SortedBy(r, NameOf)
    ensures multiset(r) == multiset(Seqs.Filter(entries, IsCsv))
    ensures forall e :: e in r <==> e in entries && IsCsv(e)
  {
    var r := Sorting.SortBy(Seqs.Filter(entries, IsCsv), NameOf);
    assert forall e :: e in r <==> e in multiset(r);
    r
  }

  /** `strptime(file.split('.')[0], '%Y-%m-%d')` (line 53). */
  function FileDate(name: string): Option<Strptime.Date> {
    Strptime.ParseYmd(PyStr.Split(name, '.')[0])
  }

  /** `strptime(f'{year}-01-01', '%Y-%m-%d')` (line 54). */
  function YearStart(year: string): Option<Strptime.Date> {
    Strptime.ParseYmd(year + "-01-01")
  }

  /** Lines 53-56: both dates parse and the file's is not before January 1 of
      its directory's year. A parse that raises skips the file (line 93). */
  predicate InDateRange(year: string, name: string) {
    && FileDate(name).Some?
    && YearStart(year).Some?
    && Strptime.NotBefore(FileDate(name).value, YearStart(year).value)
  }

  /** For a file named after a valid date in the canonical `YYYY-MM-DD`
      form, the filter keeps it exactly when the year text is a four-digit
      year other than `0000` and the date is on or after January 1 of it. */
  lemma CanonicalFileInRange(year: string, d: Strptime.Date, ext: string)
    requires Strptime.Valid(d)
    ensures InDateRange(year, Strptime.FormatYmd(d) + "." + ext) <==>
      && Strptime.IsYearText(year) && Strptime.YearValue(year) >= 1
      && Strptime.NotBefore(d, Strptime.Date(Strptime.YearValue(year), 1, 1))
  {
    var stem := Strptime.FormatYmd(d);
    assert '.' !in stem by {
      assert forall k :: 0 <= k < |stem| ==> stem[k] != '.';
    }
    assert stem + "." + ext == stem + ['.'] + ext;
    PyStr.SplitAtFirst(stem, '.', ext);
    Strptime.ParseFormatYmd(d);
    Strptime.YearStartParses(year);
  }

  /** The chunks of each model, in the order the models were given (line 65). */
  function ModelRows(t: Table, serials: set<string>): string -> seq<Row> {
    m => ChunkRows(t, m, serials)
  }

  /** What one CSV file contributes (lines 51-95). */
  function FileRows(year: string, e: Entry, models: seq<string>, serials: set<string>): seq<Row> {
    if !InDateRange(year, e.name) then []
    else
      match e.content
      case Unreadable => []
      case Csv(t) => Seqs.ConcatMap(models, ModelRows(t, serials))
  }

  function FileRowsOf(year: string, models: seq<string>, serials: set<string>): Entry -> seq<Row> {
    e => FileRows(year, e, models, serials)
  }

  /** What one year directory contributes (lines 40-98); a missing directory
      contributes nothing. */
  function YearRows(basePath: string, year: string, fs: FileSystem, models: seq<string>, serials: set<string>): seq<Row> {
    var dir := PosixPath.Join(basePath, year);
    if dir !in fs.dirs then []
    else Seqs.ConcatMap(CsvFiles(fs.dirs[dir]), FileRowsOf(year, models, serials))
  }

  function YearRowsOf(basePath: string, fs: FileSystem, models: seq<string>, serials: set<string>): string -> seq<Row> {
    y => YearRows(basePath, y, fs, models, serials)
  }

  /** The accumulated `database` (lines 32-98): every year in order. */
  function Database(years: seq<string>, basePath: string, fs: FileSystem, models: seq<string>, serials: set<string>): seq<Row> {
    Seqs.ConcatMap(years, YearRowsOf(basePath, fs, models, serials))
  }

  /** `save_to_pkl(model, years, failed, base_path, output_dir)`. */
  function SaveToPkl(model: string, years: seq<string>, failed: bool, basePath: string, outputDir: string, fs: FileSystem)
    : (r: Result<Saved, PyError>)
    ensures var npy := NpyPath(outputDir, years, failed, ParseList(model));
            && (npy !in fs.npy ==> r == Err(FileNotFoundError(npy)))
            && (r.Ok? <==> npy in fs.npy && fs.npy[npy].SerialArray?)
    ensures r.Ok? ==> r.value.path == PklPath(outputDir, years, failed, ParseList(model))
    ensures r.Ok? ==>
      var loaded := fs.npy[NpyPath(outputDir, years, failed, ParseList(model))].serials;
      forall row :: row in r.value.rows ==>
        && ModelColumn in row && row[ModelColumn] in ParseList(model)
        && SerialColumn in row && row[SerialColumn] in loaded
    ensures r.Ok? ==>
      var loaded := fs.npy[NpyPath(outputDir, years, failed, ParseList(model))].serials;
      r.value.rows == Database(years, basePath, fs, ParseList(model), set s | s in loaded)
  {
    var models := ParseList(model);
    var npy := NpyPath(outputDir, years, failed, models);
    if npy !in fs.npy then Err(FileNotFoundError(npy))
    else
      match fs.npy[npy]
      case Unloadable => Err(LoadError(npy))
      case SerialArray(loaded) =>
        var serials := set s | s in loaded;
        var pkl := PklPath(outputDir, years, failed, models);
        DatabaseSound(years, basePath, fs, models, serials);
        Ok(Saved(pkl, Database(years, basePath, fs, models, serials), "Data saved to " + pkl))
  }

  /** The command line (lines 121-127): the years argument is split on commas
      and stripped like the model argument, and both lists drive the run. */
  function Cli(modelArg: string, yearsArg: string, failed: bool, basePath: string, outputDir: string, fs: FileSystem)
    : (r: Result<Saved, PyError>)
    ensures var npy := NpyPath(outputDir, ParseList(yearsArg), failed, ParseList(modelArg));
            r.Ok? <==> npy in fs.npy && fs.npy[npy].SerialArray?
    ensures r.Ok? ==>
      var loaded := fs.npy[NpyPath(outputDir, ParseList(yearsArg), failed, ParseList(modelArg))].serials;
      r.value.rows == Database(ParseList(yearsArg), basePath, fs, ParseList(modelArg), set s | s in loaded)
    ensures r.Ok? ==> r.value.path == PklPath(outputDir, ParseList(yearsArg), failed, ParseList(modelArg))
  {
    SaveToPkl(modelArg, ParseList(yearsArg), failed, basePath, outputDir, fs)
  }

  /** A file contributes a row exactly when its dates are in range, it was
      read, and one of the models' chunks holds the row. */
  lemma FileRowsMembers(year: string, e: Entry, models: seq<string>, serials: set<string>, row: Row)
    ensures row in FileRows(year, e, models, serials) <==>
      && InDateRange(year, e.name)
      && e.content.Csv?
      && exists m :: m in models && row in ChunkRows(e.content.table, m, serials)
  {
    if InDateRange(year, e.name) && e.content.Csv? {
      Seqs.InConcatMapElement(models, ModelRows(e.content.table, serials), row);
    }
  }

  /** A year contributes a row exactly when its directory exists and one of
      its `.csv` entries contributes the row. */
  lemma YearRowsMembers(basePath: string, year: string, fs: FileSystem, models: seq<string>, serials: set<string>, row: Row)
    ensures var dir := PosixPath.Join(basePath, year);
      row in YearRows(basePath, year, fs, models, serials) <==>
      && dir in fs.dirs
      && exists e :: e in fs.dirs[dir] && IsCsv(e) && row in FileRows(year, e, models, serials)
  {
    var dir := PosixPath.Join(basePath, year);
    if dir in fs.dirs {
      var files := CsvFiles(fs.dirs[dir]);
      Seqs.InConcatMapElement(files, FileRowsOf(year, models, serials), row);
    }
  }

  /** The database holds a row exactly when some listed year contributes it. */
  lemma DatabaseMembers(years: seq<string>, basePath: string, fs: FileSystem, models: seq<string>, serials: set<string>, row: Row)
    ensures row in Database(years, basePath, fs, models, serials) <==>
      exists y :: y in years && row in YearRows(basePath, y, fs, models, serials)
  {
    Seqs.InConcatMapElement(years, YearRowsOf(basePath, fs, models, serials), row);
  }

  /** Every row of the database belongs to one of the requested models and to
      a wanted serial number, and is a row of an in-range CSV file in the
      directory of a listed year, with exactly that file's drop list removed. */
  lemma DatabaseRowSound(years: seq<string>, basePath: string, fs: FileSystem, models: seq<string>, serials: set<string>, row: Row)
    requires row in Database(years, basePath, fs, models, serials)
    ensures ModelColumn in row && row[ModelColumn] in models
    ensures SerialColumn in row && row[SerialColumn] in serials
    ensures exists y, e :: && y in years && PosixPath.Join(basePath, y) in fs.dirs
                           && e in fs.dirs[PosixPath.Join(basePath, y)]
                           && IsCsv(e) && InDateRange(y, e.name) && e.content.Csv?
                           && row in FileRows(y, e, models, serials)
                           && PrunedFrom(row, e.content.table)
  {
    DatabaseMembers(years, basePath, fs, models, serials, row);
    var y :| y in years && row in YearRows(basePath, y, fs, models, serials);
    YearRowsMembers(basePath, y, fs, models, serials, row);
    var dir := PosixPath.Join(basePath, y);
    var e :| e in fs.dirs[dir] && IsCsv(e) && row in FileRows(y, e, models, serials);
    FileRowsMembers(y, e, models, serials, row);
    var m :| m in models && row in ChunkRows(e.content.table, m, serials);
    ChunkRowsSound(e.content.table, m, serials, row);
  }

  /** Every wanted row of an in-range CSV file of a listed year reaches the
      database, with the file's drop list removed, provided the file has both
      key columns and every `smart_` column name has an integer field. */
  lemma DatabaseComplete(years: seq<string>, basePath: string, fs: FileSystem, models: seq<string>, serials: set<string>,
                         y: string, e: Entry, m: string, src: Row)
    requires y in years && PosixPath.Join(basePath, y) in fs.dirs && e in fs.dirs[PosixPath.Join(basePath, y)]
    requires IsCsv(e) && InDateRange(y, e.name) && e.content.Csv?
    requires ModelColumn in e.content.table.columns && SerialColumn in e.content.table.columns
    requires DropColumns(e.content.table.columns).Ok?
    requires m in models && src in e.content.table.rows && Matches(src, m, serials)
    ensures PruneRow(src, DropColumns(e.content.table.columns).value) in Database(years, basePath, fs, models, serials)
  {
    var t := e.content.table;
    var row := PruneRow(src, DropColumns(t.columns).value);
    ChunkRowsComplete(t, m, serials, src);
    FileRowsMembers(y, e, models, serials, row);
    YearRowsMembers(basePath, y, fs, models, serials, row);
    DatabaseMembers(years, basePath, fs, models, serials, row);
  }

  /** A witness snapshot: one year directory, `data/2016`, holding one daily
      CSV file with one wanted row of drive model ST4000DM000. */
  const WitnessRow: Row := map[ModelColumn := "ST4000DM000", SerialColumn := "Z300"]
  const WitnessFile := Entry("2016-01-01.csv", Csv(Table([ModelColumn, SerialColumn], [WitnessRow])))
  const WitnessFs := FileSystem(map[], map["data/2016" := [WitnessFile]])

  /** The witness snapshot meets the preconditions of `DatabaseComplete`
      for year `2016`, base path `data`, model ST4000DM000 and serial Z300.
      First, its year directory exists and lists the file. */
  lemma WitnessDirectory()
    ensures PosixPath.Join("data", "2016") in WitnessFs.dirs
    ensures WitnessFile in WitnessFs.dirs[PosixPath.Join("data", "2016")]
  {
    WitnessPath();
    assert WitnessFs.dirs["data/2016"] == [WitnessFile];
    assert WitnessFile in [WitnessFile];
  }

  /** Second, the witness file is an in-range CSV file that was read. */
  lemma WitnessEligible()
    ensures IsCsv(WitnessFile) && InDateRange("2016", WitnessFile.name) && WitnessFile.content.Csv?
  {
    WitnessInRange();
    assert PyStr.EndsWith("2016-01-01.csv", CsvSuffix) by {
      assert "2016-01-01.csv"[10..] == CsvSuffix;
    }
  }

  /** Third, the witness table has both key columns, no column whose check
      raises, and the wanted row. */
  lemma WitnessTable()
    ensures var t := WitnessFile.content.table;
            && ModelColumn in t.columns && SerialColumn in t.columns && DropColumns(t.columns).Ok?
            && WitnessRow in t.rows && Matches(WitnessRow, "ST4000DM000", {"Z300"})
  {
    Frames.KeyColumnsNeverDropped();
  }

  lemma WitnessPath()
    ensures PosixPath.Join("data", "2016") == "data/2016"
  {
    assert "2016"[..1][0] == '2';
    assert "data"[3..][0] == 'a';
  }

  lemma WitnessInRange()
    ensures InDateRange("2016", "2016-01-01.csv")
  {
    var d := Strptime.Date(2016, 1, 1);
    var name := Strptime.FormatYmd(d) + "." + "csv";
    assert name == "2016-01-01.csv" by {
      assert Strptime.Pad4(2016) == "2016";
      assert Strptime.Pad2(1) == "01";
    }
    assert InDateRange("2016", name) by {
      assert Strptime.IsYearText("2016") && Strptime.YearValue("2016") == 2016;
      CanonicalFileInRange("2016", d, "csv");
    }
  }

  /** Processing the years `a + b` accumulates the rows of `a`, then those of `b`. */
  lemma DatabaseAppend(a: seq<string>, b: seq<string>, basePath: string, fs: FileSystem, models: seq<string>, serials: set<string>)
    ensures Database(a + b, basePath, fs, models, serials)
            == Database(a, basePath, fs, models, serials) + Database(b, basePath, fs, models, serials)
  {
    Seqs.ConcatMapAppend(a, b, YearRowsOf(basePath, fs, models, serials));
  }

  /** A year whose directory does not exist is skipped without affecting the others. */
  lemma MissingYearSkipped(a: seq<string>, y: string, b: seq<string>, basePath: string, fs: FileSystem, models: seq<string>, serials: set<string>)
    requires PosixPath.Join(basePath, y) !in fs.dirs
    ensures Database(a + [y] + b, basePath, fs, models, serials) == Database(a + b, basePath, fs, models, serials)
  {
    Seqs.ConcatMapSkipsEmpty(a, y, b, YearRowsOf(basePath, fs, models, serials));
  }

  /** Within a year, only `.csv` files in the date range contribute, and they
      do so in sorted name order. */
  lemma YearRowsFromEligibleFiles(basePath: string, year: string, fs: FileSystem, models: seq<string>, serials: set<string>)
    requires PosixPath.Join(basePath, year) in fs.dirs
    ensures var files := CsvFiles(fs.dirs[PosixPath.Join(basePath, year)]);
            var eligible := Seqs.Filter(files, (e: Entry) => InDateRange(year, e.name));
            && Sorting.SortedBy(eligible, NameOf)
            && YearRows(basePath, year, fs, models, serials) == Seqs.ConcatMap(eligible, FileRowsOf(year, models, serials))
  {
    var files := CsvFiles(fs.dirs[PosixPath.Join(basePath, year)]);
    var p := (e: Entry) => InDateRange(year, e.name);
    Seqs.ConcatMapFilter(files, p, FileRowsOf(year, models, serials));
    Seqs.FilterIsSubsequence(files, p);
    SubsequenceStaysSorted(Seqs.Filter(files, p), files);
  }

  /** Deleting elements from a sorted sequence leaves it sorted. */
  lemma SubsequenceStaysSorted(xs: seq<Entry>, ys: seq<Entry>)
    requires Seqs.IsSubsequence(xs, ys) && Sorting.SortedBy(ys, NameOf)
    ensures Sorting.SortedBy(xs, NameOf)
  {
    var idx :| Seqs.IsEmbedding(idx, xs, ys);
    forall i, j | 0 <= i < j < |xs|
      ensures Sorting.StrLe(NameOf(xs[i]), NameOf(xs[j]))
    {
      assert xs[i] == ys[idx[i]] && xs[j] == ys[idx[j]] && idx[i] < idx[j];
    }
  }

  /** A model whose chunk raises for a file is skipped without affecting the
      other models' chunks of that file. */
  lemma FailingModelSkipped(t: Table, a: seq<string>, m: string, b: seq<string>, serials: set<string>)
    requires ModelChunk(t, m, serials).Err?
    ensures Seqs.ConcatMap(a + [m] + b, ModelRows(t, serials)) == Seqs.ConcatMap(a + b, ModelRows(t, serials))
  {
    Seqs.ConcatMapSkipsEmpty(a, m, b, ModelRows(t, serials));
  }

  lemma DatabaseSound(years: seq<string>, basePath: string, fs: FileSystem, models: seq<string>, serials: set<string>)
    ensures forall row :: row in Database(years, basePath, fs, models, serials) ==>
      && ModelColumn in row && row[ModelColumn] in models
      && SerialColumn in row && row[SerialColumn] in serials
  {
    forall row | row in Database(years, basePath, fs, models, serials)
      ensures ModelColumn in row && row[ModelColumn] in models
      ensures SerialColumn in row && row[SerialColumn] in serials
    {
      DatabaseRowSound(years, basePath, fs, models, serials, row);
    }
  }
}

=== FILE: seqs.dfy ===
/** Order-preserving sequence combinators: the filtering that pandas boolean
    indexing performs and the concatenation that repeated `pd.concat` builds. */
module Seqs {

  /** `idx` embeds `xs` into `ys` at strictly increasing positions. */
  ghost predicate IsEmbedding<T>(idx: seq<nat>, xs: seq<T>, ys: seq<T>) {
    && |idx| == |xs|
    && (forall k :: 0 <= k < |idx| ==> idx[k] < |ys| && xs[k] == ys[idx[k]])
    && (forall k, l :: 0 <= k < l < |idx| ==> idx[k] < idx[l])
  }

  /** `xs` is `ys` with some elements deleted: the relative order is kept. */
  ghost predicate IsSubsequence<T>(xs: seq<T>, ys: seq<T>) {
    exists idx: seq<nat> :: IsEmbedding(idx, xs, ys)
  }

  /** The elements of `xs` satisfying `p`, in their original order. */
  function Filter<T(!new)>(xs: seq<T>, p: T -> bool): (r: seq<T>)
    ensures |r| <= |xs|
    ensures forall x :: x in r <==> x in xs && p(x)
    ensures forall x :: multiset(r)[x] == if p(x) then multiset(xs)[x] else 0
  {
    if |xs| == 0 then []
    else
      assert xs == [xs[0]] + xs[1..];
      (if p(xs[0]) then [xs[0]] else []) + Filter(xs[1..], p)
  }

  /** Putting an element in front of a concatenation. */
  lemma ConsAppend<T>(h: T, a: seq<T>, b: seq<T>)
    ensures [h] + (a + b) == ([h] + a) + b
  {
  }

  /** Filtering a concatenation filters each part. */
  lemma {:induction false} FilterAppend<T(!new)>(a: seq<T>, b: seq<T>, p: T -> bool)
    ensures Filter(a + b, p) == Filter(a, p) + Filter(b, p)
  {
    if |a| == 0 {
      assert a + b == b;
    } else {
      assert (a + b)[1..] == a[1..] + b;
      FilterAppend(a[1..], b, p);
    }
  }

  /** Positions shifted by one past a new head element. */
  function Shift(idx: seq<nat>): (r: seq<nat>)
    ensures |r| == |idx|
    ensures forall k :: 0 <= k < |idx| ==> r[k] == idx[k] + 1
  {
    seq(|idx|, k requires 0 <= k < |idx| => idx[k] + 1)
  }

  /** A subsequence survives putting a new element in front of the target,
      whether or not the source takes that element too. */
  lemma ConsSubsequence<T>(xs: seq<T>, y: T, ys: seq<T>)
    requires IsSubsequence(xs, ys)
    ensures IsSubsequence(xs, [y] + ys)
    ensures IsSubsequence([y] + xs, [y] + ys)
  {
    var idx :| IsEmbedding(idx, xs, ys);
    assert IsEmbedding(Shift(idx), xs, [y] + ys);
    assert IsEmbedding([0] + Shift(idx), [y] + xs, [y] + ys);
  }

  /** Filtering keeps the relative order of the elements it keeps. */
  lemma {:induction false} FilterIsSubsequence<T(!new)>(xs: seq<T>, p: T -> bool)
    ensures IsSubsequence(Filter(xs, p), xs)
  {
    if |xs| == 0 {
      assert IsEmbedding([], Filter(xs, p), xs);
    } else {
      var tail := Filter(xs[1..], p);
      FilterIsSubsequence(xs[1..], p);
      ConsSubsequence(tail, xs[0], xs[1..]);
      assert [xs[0]] + xs[1..] == xs;
      assert Filter(xs, p) == if p(xs[0]) then [xs[0]] + tail else tail;
    }
  }

  /** The concatenation of `f(x)` for every `x` of `xs`, in order. */
  function ConcatMap<A, B>(xs: seq<A>, f: A -> seq<B>): (r: seq<B>)
  {
    if |xs| == 0 then [] else f(xs[0]) + ConcatMap(xs[1..], f)
  }

  /** An element of the concatenation comes from exactly the parts holding it. */
  lemma {:induction false} InConcatMap<A, B>(xs: seq<A>, f: A -> seq<B>, y: B)
    ensures y in ConcatMap(xs, f) <==> exists i :: 0 <= i < |xs| && y in f(xs[i])
  {
    if |xs| > 0 {
      InConcatMap(xs[1..], f, y);
      if y in ConcatMap(xs[1..], f) {
        var i :| 0 <= i < |xs[1..]| && y in f(xs[1..][i]);
        assert y in f(xs[i + 1]);
      }
      if exists i :: 0 <= i < |xs| && y in f(xs[i]) {
        var i :| 0 <= i < |xs| && y in f(xs[i]);
        if i > 0 {
          assert y in f(xs[1..][i - 1]);
        }
      }
    }
  }

  /** The same, phrased by element rather than by position. */
  lemma InConcatMapElement<A, B>(xs: seq<A>, f: A -> seq<B>, y: B)
    ensures y in ConcatMap(xs, f) <==> exists x :: x in xs && y in f(x)
  {
    InConcatMap(xs, f, y);
    if exists x :: x in xs && y in f(x) {
      var x :| x in xs && y in f(x);
      var i :| 0 <= i < |xs| && xs[i] == x;
      assert y in f(xs[i]);
    }
  }

  /** Concatenating over `a + b` concatenates the two halves in order. */
  lemma {:induction false} ConcatMapAppend<A, B>(a: seq<A>, b: seq<A>, f: A -> seq<B>)
    ensures ConcatMap(a + b, f) == ConcatMap(a, f) + ConcatMap(b, f)
  {
    if |a| == 0 {
      assert a + b == b;
    } else {
      assert (a + b)[1..] == a[1..] + b;
      ConcatMapAppend(a[1..], b, f);
    }
  }

  /** Parts that contribute nothing can be dropped without changing the result. */
  lemma {:induction false} ConcatMapSkipsEmpty<A, B>(a: seq<A>, x: A, b: seq<A>, f: A -> seq<B>)
    requires f(x) == []
    ensures ConcatMap(a + [x] + b, f) == ConcatMap(a + b, f)
  {
    ConcatMapAppend(a + [x], b, f);
    ConcatMapAppend(a, [x], f);
    ConcatMapAppend(a, b, f);
    assert ConcatMap([x], f) == f(x) + ConcatMap([], f);
  }

  /** When the elements failing `p` contribute nothing, only the ones that
      pass matter, still in their original order. */
  lemma {:induction false} ConcatMapFilter<A(!new), B>(xs: seq<A>, p: A -> bool, f: A -> seq<B>)
    requires forall x :: x in xs && !p(x) ==> f(x) == []
    ensures ConcatMap(Filter(xs, p), f) == ConcatMap(xs, f)
  {
    if |xs| > 0 {
      ConcatMapFilter(xs[1..], p, f);
      var rest := Filter(xs[1..], p);
      if p(xs[0]) {
        assert Filter(xs, p) == [xs[0]] + rest;
        assert ([xs[0]] + rest)[1..] == rest;
      } else {
        assert Filter(xs, p) == rest;
      }
    }
  }
}

=== FILE: sorting.dfy ===
/** `sorted()` of strings, as the directory walk uses it: Python orders
    strings lexicographically by code point, a proper prefix first. The sort
    is an insertion sort keyed on a string. */
module Sorting {

  /** Python's `a <= b` on `str`. */
  predicate StrLe(a: string, b: string) {
    |a| == 0 || (|b| > 0 && (a[0] < b[0] || (a[0] == b[0] && StrLe(a[1..], b[1..]))))
  }

  lemma StrLeTotal(a: string, b: string)
    ensures StrLe(a, b) || StrLe(b, a)
  {
  }

  lemma StrLeTransitive(a: string, b: string, c: string)
    requires StrLe(a, b) && StrLe(b, c)
    ensures StrLe(a, c)
  {
  }

  lemma StrLeAntisymmetric(a: string, b: string)
    requires StrLe(a, b) && StrLe(b, a)
    ensures a == b
  {
    if |a| > 0 && |b| > 0 {
      StrLeAntisymmetric(a[1..], b[1..]);
      assert a == [a[0]] + a[1..] && b == [b[0]] + b[1..];
    }
  }

  /** Keys are in non-decreasing order. */
  ghost predicate SortedBy<T>(xs: seq<T>, key: T -> string) {
    forall i, j :: 0 <= i < j < |xs| ==> StrLe(key(xs[i]), key(xs[j]))
  }

  /** Places `x` before the first element whose key is not smaller. */
  function InsertBy<T>(x: T, xs: seq<T>, key: T -> string): (r: seq<T>)
    requires SortedBy(xs, key)
    ensures multiset(r) == multiset(xs) + multiset{x}
    ensures SortedBy(r, key)
  {
    if |xs| == 0 then [x]
    else if StrLe(key(x), key(xs[0])) then
      assert forall j :: 0 < j < |xs| ==> StrLe(key(xs[0]), key(xs[j]));
      InsertHeadSorted(x, xs, key);
      [x] + xs
    else
      var rest := InsertBy(x, xs[1..], key);
      StrLeTotal(key(x), key(xs[0]));
      assert xs == [xs[0]] + xs[1..];
      HeadBelowInserted(xs[0], x, xs[1..], rest, key);
      [xs[0]] + rest
  }

  lemma InsertHeadSorted<T>(x: T, xs: seq<T>, key: T -> string)
    requires |xs| > 0 && SortedBy(xs, key) && StrLe(key(x), key(xs[0]))
    ensures SortedBy([x] + xs, key)
  {
    forall j | 0 < j < |xs|
      ensures StrLe(key(x), key(xs[j]))
    {
      StrLeTransitive(key(x), key(xs[0]), key(xs[j]));
    }
  }

  /** `h` may precede `rest` when it is below `x` and below everything `rest`
      was built from. */
  lemma HeadBelowInserted<T>(h: T, x: T, tail: seq<T>, rest: seq<T>, key: T -> string)
    requires SortedBy([h] + tail, key) && SortedBy(rest, key)
    requires StrLe(key(h), key(x))
    requires multiset(rest) == multiset(tail) + multiset{x}
    ensures SortedBy([h] + rest, key)
  {
    forall j | 0 <= j < |rest|
      ensures StrLe(key(h), key(rest[j]))
    {
      assert rest[j] in multiset(rest);
      if rest[j] != x {
        assert rest[j] in multiset(tail);
        var k :| 0 <= k < |tail| && tail[k] == rest[j];
        assert ([h] + tail)[k + 1] == tail[k] && ([h] + tail)[0] == h;
        assert StrLe(key(([h] + tail)[0]), key(([h] + tail)[k + 1]));
      }
    }
  }

  /** `sorted(xs, key=key)`: a stable insertion sort. */
  function SortBy<T>(xs: seq<T>, key: T -> string): (r: seq<T>)
    ensures multiset(r) == multiset(xs)
    ensures SortedBy(r, key)
  {
    if |xs| == 0 then []
    else
      assert xs == [xs[0]] + xs[1..];
      InsertBy(xs[0], SortBy(xs[1..], key), key)
  }
}

=== FILE: strptime.dfy ===
/** `datetime.datetime.strptime(s, '%Y-%m-%d')` as CPython's `_strptime`
    performs it: the format becomes the regular expression
      (\d\d\d\d)-(1[0-2]|0[1-9]|[1-9])-(3[01]|[12]\d|0[1-9]|[1-9]| [1-9])
    which is applied with `re.match` (alternatives tried left to right, no
    anchor at the end); text left over after the match raises
    "unconverted data remains", and a year of 0 or a day past the end of the
    month raises when the date is built. Every failure is a `ValueError`,
    modelled as `None`. Only ASCII digits are modelled for `\d`. */
module Strptime {
  import opened Results
  import PyStr

  /** A calendar date at midnight, which is all `'%Y-%m-%d'` can produce. */
  datatype Date = Date(year: int, month: int, day: int)

  predicate IsLeapYear(y: int) {
    y % 4 == 0 && (y % 100 != 0 || y % 400 == 0)
  }

  function DaysInMonth(y: int, m: int): int
    requires 1 <= m <= 12
  {
    if m == 2 then (if IsLeapYear(y) then 29 else 28)
    else if m == 4 || m == 6 || m == 9 || m == 11 then 30
    else 31
  }

  /** A date `datetime.date` accepts: years 1 to 9999 and a real day of the month. */
  predicate Valid(d: Date) {
    && 1 <= d.year <= 9999
    && 1 <= d.month <= 12
    && 1 <= d.day <= DaysInMonth(d.year, d.month)
  }

  /** `a >= b` on midnight datetimes: lexicographic on (year, month, day). */
  predicate NotBefore(a: Date, b: Date) {
    || a.year > b.year
    || (a.year == b.year && a.month > b.month)
    || (a.year == b.year && a.month == b.month && a.day >= b.day)
  }

  /** One regex alternative that matched: the field value and its width. */
  datatype Piece = Piece(value: int, width: nat)

  predicate Nonzero(c: char) {
    '1' <= c <= '9'
  }

  /** The alternatives of `1[0-2]|0[1-9]|[1-9]` that match at `i`, in the
      order the regex engine tries them. */
  function MonthAlternatives(s: string, i: nat): (r: seq<Piece>)
    ensures forall k :: 0 <= k < |r| ==> 1 <= r[k].value <= 12 && 1 <= r[k].width <= 2
    ensures forall k :: 0 <= k < |r| ==> i + r[k].width <= |s|
  {
    var a := if i + 1 < |s| && s[i] == '1' && '0' <= s[i + 1] <= '2' then [Piece(10 + PyStr.DigitValue(s[i + 1]), 2)] else [];
    var b := if i + 1 < |s| && s[i] == '0' && Nonzero(s[i + 1]) then [Piece(PyStr.DigitValue(s[i + 1]), 2)] else [];
    var c := if i < |s| && Nonzero(s[i]) then [Piece(PyStr.DigitValue(s[i]), 1)] else [];
    a + b + c
  }

  /** The alternatives of `3[01]|[12]\d|0[1-9]|[1-9]| [1-9]` that match at
      `i`, in the order the regex engine tries them. */
  function DayAlternatives(s: string, i: nat): (r: seq<Piece>)
    ensures forall k :: 0 <= k < |r| ==> 1 <= r[k].value <= 31 && 1 <= r[k].width <= 2
    ensures forall k :: 0 <= k < |r| ==> i + r[k].width <= |s|
  {
    var a := if i + 1 < |s| && s[i] == '3' && '0' <= s[i + 1] <= '1' then [Piece(30 + PyStr.DigitValue(s[i + 1]), 2)] else [];
    var b := if i + 1 < |s| && '1' <= s[i] <= '2' && PyStr.IsDigit(s[i + 1]) then [Piece(10 * PyStr.DigitValue(s[i]) + PyStr.DigitValue(s[i + 1]), 2)] else [];
    var c := if i + 1 < |s| && s[i] == '0' && Nonzero(s[i + 1]) then [Piece(PyStr.DigitValue(s[i + 1]), 2)] else [];
    var d := if i < |s| && Nonzero(s[i]) then [Piece(PyStr.DigitValue(s[i]), 1)] else [];
    var e := if i + 1 < |s| && s[i] == ' ' && Nonzero(s[i + 1]) then [Piece(PyStr.DigitValue(s[i + 1]), 2)] else [];
    a + b + c + d + e
  }

  /** The groups captured by `re.match` and where the match ends. */
  datatype Match = Match(date: Date, end: nat)

  /** Tries the month alternatives in order: the first one followed by `-`
      and some day alternative wins, and the day is its first alternative. */
  function MatchMonthDay(s: string, year: int, months: seq<Piece>): (r: Option<Match>)
    requires forall k :: 0 <= k < |months| ==> 1 <= months[k].value <= 12 && 1 <= months[k].width <= 2
    ensures r.Some? ==> 1 <= r.value.date.month <= 12 && 1 <= r.value.date.day <= 31
    ensures r.Some? ==> 8 <= r.value.end <= 10 && r.value.end <= |s|
    decreases |months|
  {
    if |months| == 0 then None
    else
      var m := months[0];
      var dash := 5 + m.width;
      var days := if dash < |s| && s[dash] == '-' then DayAlternatives(s, dash + 1) else [];
      if |days| > 0 then Some(Match(Date(year, m.value, days[0].value), dash + 1 + days[0].width))
      else MatchMonthDay(s, year, months[1..])
  }

  /** `re.match` of the `'%Y-%m-%d'` pattern against `s`. */
  function MatchYmd(s: string): (r: Option<Match>)
    ensures r.Some? ==> 1 <= r.value.date.month <= 12 && 1 <= r.value.date.day <= 31
    ensures r.Some? ==> 8 <= r.value.end <= 10 && r.value.end <= |s|
  {
    if |s| < 5 || !(PyStr.IsDigit(s[0]) && PyStr.IsDigit(s[1]) && PyStr.IsDigit(s[2]) && PyStr.IsDigit(s[3])) || s[4] != '-' then None
    else
      var year := 1000 * PyStr.DigitValue(s[0]) + 100 * PyStr.DigitValue(s[1]) + 10 * PyStr.DigitValue(s[2]) + PyStr.DigitValue(s[3]);
      MatchMonthDay(s, year, MonthAlternatives(s, 5))
  }

  /** `strptime(s, '%Y-%m-%d')`: the parsed date, or `None` where Python raises. */
  function ParseYmd(s: string): (r: Option<Date>)
    ensures r.Some? ==> Valid(r.value)
    ensures r.Some? ==> 8 <= |s| <= 10
  {
    match MatchYmd(s)
    case None => None
    case Some(m) => if m.end == |s| && Valid(m.date) then Some(m.date) else None
  }

  /** Four decimal digits, zero-padded: how a year is written. */
  function Pad4(n: nat): (r: string)
    requires n < 10000
    ensures |r| == 4
  {
    Pad2(n / 100) + Pad2(n % 100)
  }

  function Pad2(n: nat): (r: string)
    requires n < 100
    ensures |r| == 2
  {
    [PyStr.DigitChar(n / 10), PyStr.DigitChar(n % 10)]
  }

  /** `d.strftime('%Y-%m-%d')` for a valid date: the canonical file-name date. */
  function FormatYmd(d: Date): (r: string)
    requires Valid(d)
    ensures |r| == 10
  {
    Pad4(d.year) + "-" + Pad2(d.month) + "-" + Pad2(d.day)
  }

  /** Every valid date written in the canonical zero-padded form parses back to itself. */
  lemma ParseFormatYmd(d: Date)
    requires Valid(d)
    ensures ParseYmd(FormatYmd(d)) == Some(d)
  {
    var s := FormatYmd(d);
    assert s[..4] == Pad4(d.year) && s[4] == '-' && s[5..7] == Pad2(d.month) && s[7] == '-' && s[8..10] == Pad2(d.day);
    YearMatchesCanonical(s, d.year);
    MonthMatchesCanonical(s, d.month);
    DayMatchesCanonical(s, d.day);
    MatchPieces(s, d);
  }

  /** Text whose year digits, month and day alternatives spell out a valid
      date matches the pattern in full. */
  lemma MatchPieces(s: string, d: Date)
    requires Valid(d) && |s| == 10 && s[4] == '-' && s[7] == '-'
    requires PyStr.IsDigit(s[0]) && PyStr.IsDigit(s[1]) && PyStr.IsDigit(s[2]) && PyStr.IsDigit(s[3])
    requires 1000 * PyStr.DigitValue(s[0]) + 100 * PyStr.DigitValue(s[1]) + 10 * PyStr.DigitValue(s[2]) + PyStr.DigitValue(s[3]) == d.year
    requires |MonthAlternatives(s, 5)| > 0 && MonthAlternatives(s, 5)[0] == Piece(d.month, 2)
    requires |DayAlternatives(s, 8)| > 0 && DayAlternatives(s, 8)[0] == Piece(d.day, 2)
    ensures MatchYmd(s) == Some(Match(d, 10))
  {
    MatchCanonical(s, d.year, d.month, d.day);
  }

  lemma MatchCanonical(s: string, y: int, m: int, day: int)
    requires |s| == 10 && s[7] == '-'
    requires |MonthAlternatives(s, 5)| > 0 && MonthAlternatives(s, 5)[0] == Piece(m, 2)
    requires |DayAlternatives(s, 8)| > 0 && DayAlternatives(s, 8)[0] == Piece(day, 2)
    ensures MatchMonthDay(s, y, MonthAlternatives(s, 5)) == Some(Match(Date(y, m, day), 10))
  {
  }

  lemma Pad2Value(n: nat)
    requires n < 100
    ensures PyStr.IsDigit(Pad2(n)[0]) && PyStr.IsDigit(Pad2(n)[1])
    ensures 10 * PyStr.DigitValue(Pad2(n)[0]) + PyStr.DigitValue(Pad2(n)[1]) == n
  {
  }

  lemma YearMatchesCanonical(s: string, y: int)
    requires 1 <= y <= 9999 && |s| == 10
    requires s[..4] == Pad4(y)
    ensures PyStr.IsDigit(s[0]) && PyStr.IsDigit(s[1]) && PyStr.IsDigit(s[2]) && PyStr.IsDigit(s[3])
    ensures 1000 * PyStr.DigitValue(s[0]) + 100 * PyStr.DigitValue(s[1]) + 10 * PyStr.DigitValue(s[2]) + PyStr.DigitValue(s[3]) == y
  {
    Pad2Value(y / 100);
    Pad2Value(y % 100);
    assert s[0] == Pad2(y / 100)[0] && s[1] == Pad2(y / 100)[1];
    assert s[2] == Pad2(y % 100)[0] && s[3] == Pad2(y % 100)[1];
  }

  lemma MonthMatchesCanonical(s: string, m: int)
    requires 1 <= m <= 12 && |s| == 10
    requires s[5..7] == Pad2(m)
    ensures MonthAlternatives(s, 5)[0] == Piece(m, 2)
  {
    assert s[5] == Pad2(m)[0] && s[6] == Pad2(m)[1];
  }

  lemma DayMatchesCanonical(s: string, day: int)
    requires 1 <= day <= 31 && |s| == 10
    requires s[8..10] == Pad2(day)
    ensures DayAlternatives(s, 8)[0] == Piece(day, 2)
  {
    assert s[8] == Pad2(day)[0] && s[9] == Pad2(day)[1];
  }

  /** Exactly four ASCII digits: what `%Y` matches. */
  predicate IsYearText(y: string) {
    |y| == 4 && PyStr.IsDigit(y[0]) && PyStr.IsDigit(y[1]) && PyStr.IsDigit(y[2]) && PyStr.IsDigit(y[3])
  }

  function YearValue(y: string): int
    requires IsYearText(y)
  {
    1000 * PyStr.DigitValue(y[0]) + 100 * PyStr.DigitValue(y[1]) + 10 * PyStr.DigitValue(y[2]) + PyStr.DigitValue(y[3])
  }

  /** `strptime(f'{year}-01-01', '%Y-%m-%d')` succeeds exactly when the year
      text is four digits other than `0000`, and then gives January 1 of it. */
  lemma YearStartParses(year: string)
    ensures ParseYmd(year + "-01-01").Some? <==> IsYearText(year) && YearValue(year) >= 1
    ensures ParseYmd(year + "-01-01").Some? ==> ParseYmd(year + "-01-01").value == Date(YearValue(year), 1, 1)
  {
    var s := year + "-01-01";
    if ParseYmd(s).Some? {
      assert |year| == 4;
      assert s[..4] == year;
    }
    if IsYearText(year) {
      assert s[..4] == year && s[4] == '-' && s[5] == '0' && s[6] == '1' && s[7] == '-' && s[8] == '0' && s[9] == '1';
      assert MonthAlternatives(s, 5)[0] == Piece(1, 2);
      assert DayAlternatives(s, 8)[0] == Piece(1, 2);
      assert MatchYmd(s) == Some(Match(Date(YearValue(year), 1, 1), 10));
    }
  }
}
